=== FILE: README.md ===
# window_terminal: the host/terminal protocol in Dafny

`window_terminal` lets a Python program open extra console windows and
`print` to them or read `input` from them. The host process keeps one
`WindowTerminal` handle per window. It listens on a loopback socket. It also
keeps a registry `_windows` of the handles that are currently registered,
keyed by uuid. Each window runs a `WindowTerminalClient`. The client
connects to the host and announces its uuid as UTF-8 bytes. It then receives
command frames: `b64encode(json.dumps({'uuid', 'command', 'arg'}))` followed
by `b'\r\n'`. It executes the frames addressed to its uuid and answers each
`input` command with the base64 of the typed line.

This project models the sequential core of that protocol in
`window_terminal/__init__.py` as pure functions over immutable records.

- **Codec.** The modules are `Base64` (section 4 of RFC 4648), `Utf8`, `Json`
  (the exact text `json.dumps` writes for the command object, with
  `ensure_ascii` escaping, and a reader for it) and `Framing` (frame, split,
  drop empty pieces, decode).
- **Protocol.** `Protocol` covers the three commands and their wire form.
  `Client` is the terminal's `_recv_handler`: uuid filter, then dispatch
  through the `print`/`input`/`close` table. It also holds the reply to an
  input command and one pass of the read loop.
- **Host.** `Window` is the handle as a state machine. The connection lock
  becomes a send gate, and each `Event` becomes a flag. A call that would
  wait is reported as waiting. `Registry` is the host's set of handles: it
  inserts a handle at `create_window`, looks it up and attaches it when a
  terminal announces itself, runs the connection's reader, and removes the
  handle when the reader exits.
- **End to end.** `Scenarios` strings these together into whole exchanges.
- **Corrections.** `Corrected` holds corrected definitions for the three
  defects listed under Findings.

Two behaviours of the code are worth naming, because a reader of the API
might expect otherwise:

- **Callback order.** Results go to waiting callbacks last in, first out,
  because `_input_callbacks.pop()` removes the most recently appended one.
  The model does the same. The first-in, first-out variant is in `Corrected`.
- **Commands after `close()`.** `close()` sends the close command and sets
  `_close_flag`, but it does not set `_finished`. Only `_shutdown` sets
  `_finished`, and it runs when the reader sees the connection end. So a
  command issued after `close()` is still sent
  (`Scenarios.PrintAfterCloseStillSends`). It fails with `AlreadyFinished`
  only once the reader has exited (`Scenarios.AbruptClose`).

All source paths below are relative to the repository root.

## Model

| member | source | states |
|---|---|---|
| Base64.Char | window_terminal/__init__.py:127 | the alphabet character chosen for every 6-bit value decodes back to that value |
| Base64.CharOfValue | window_terminal/__init__.py:127 | every alphabet character is the encoding of exactly its own value, so the alphabet is a bijection |
| Base64.NoDelimiterBytes | window_terminal/__init__.py:35 | neither CR nor LF belongs to the encoded alphabet or padding, which is what makes b'\r\n' safe as a delimiter |
| Base64.Encode | window_terminal/__init__.py:127 | b64encode output holds only alphabet or padding bytes, and it is empty exactly when the input is empty |
| Base64.EncodeLength | window_terminal/__init__.py:127 | the output is four characters for every three input bytes, with the last group rounded up |
| Base64.DecodeQuad | window_terminal/__init__.py:203 | a quantum yields one to three bytes, and fewer than three only when it is the padded last quantum |
| Base64.Decode | window_terminal/__init__.py:203 | a successful decode is empty exactly when its input is, and every failure is a base64 error; DecodeLength and DecodeEncode complete it |
| Base64.DecodeLength | window_terminal/__init__.py:203 | only a multiple of four characters decodes, giving three bytes per quantum less at most two for padding |
| Base64.GroupRoundTrip | window_terminal/__init__.py:127 | the four characters of a whole group decode back to its three bytes |
| Base64.DecodeEncode | window_terminal/__init__.py:127 | b64decode(b64encode(s)) == s for every byte string |
| Utf8.Encode | window_terminal/__init__.py:126 | str.encode('utf-8') takes one to four bytes per character |
| Utf8.Decode | window_terminal/__init__.py:204 | a successful decode yields one character per one to four bytes; every failure is a decode error |
| Utf8.DecodeEncodeChar | window_terminal/__init__.py:126 | decoding the start of a character's encoding gives back the character and the length of its encoding, whatever follows |
| Utf8.DecodeEncode | window_terminal/__init__.py:189 | bytes.decode('utf-8') inverts str.encode('utf-8') on every string |
| Json.HexDigit | window_terminal/__init__.py:123-125 | the lower-case digit written for a value reads back as that value |
| Json.ParseHex4Hex4 | window_terminal/__init__.py:123-125 | the four hex digits of a \uXXXX escape read back as the 16-bit value written |
| Json.EscapeChar | window_terminal/__init__.py:123-125 | ensure_ascii writes a character as itself exactly when it is printable ASCII other than the quotation mark and the reverse solidus |
| Json.ParseEscapeChar | window_terminal/__init__.py:274 | json.loads reads the escape of any character, including a surrogate pair above U+FFFF, back as that character |
| Json.ParseStringEscape | window_terminal/__init__.py:274 | the escaped body of any string followed by a closing quotation mark parses back to exactly that string and the rest of the text |
| Json.Expect | window_terminal/__init__.py:274 | expecting a literal succeeds exactly when the text starts with it, and returns the text after it |
| Json.Dumps | window_terminal/__init__.py:123-125 | the command object's text starts with the "uuid" member and ends with the closing brace |
| Json.Loads | window_terminal/__init__.py:274 | a text that parses as a command object starts with its "uuid" member; LoadsDumps is its round trip with Dumps |
| Json.LoadsDumps | window_terminal/__init__.py:123-125 | json.loads(json.dumps(m)) == m for every command object, with any uuid, command and argument text |
| Framing.Frame | window_terminal/__init__.py:127 | a frame ends with the delimiter, and the delimiter occurs nowhere else in it |
| Framing.FindDelimiter | window_terminal/__init__.py:271 | returns the first position where the delimiter starts, or the length when there is none |
| Framing.Split | window_terminal/__init__.py:271 | bytes.split yields at least one piece, and no piece contains the delimiter |
| Framing.JoinSplit | window_terminal/__init__.py:271 | joining the pieces with the delimiter gives back the input, so splitting loses nothing |
| Framing.NonEmpty | window_terminal/__init__.py:272 | no pieces give none, and a single piece is kept exactly when it is non-empty; with NonEmptyAppend this fixes the kept pieces as the non-empty ones, in order and with repeats |
| Framing.NonEmptyAppend | window_terminal/__init__.py:271-272 | filtering a concatenation of piece runs gives the filtered first run followed by the filtered second, so order and multiplicity are kept |
| Framing.SplitFrames | window_terminal/__init__.py:127 | splitting a concatenation of frames yields the encoded payloads in order, then one empty piece |
| Framing.FramesRecoverEncoded | window_terminal/__init__.py:271-272 | after empty pieces are dropped, a stream of frames of non-empty payloads yields exactly their encodings |
| Framing.DecodeStream | window_terminal/__init__.py:271-273 | an empty receive yields no payloads, and a receive never yields more payloads than it has pieces; DecodeStreamFrames is its round trip with Frames |
| Framing.DecodeStreamFrames | window_terminal/__init__.py:271-273 | a reader receiving a whole stream of frames recovers every non-empty payload, in order |
| Framing.EmptyPayloadVanishes | window_terminal/__init__.py:271-272 | the frame of an empty payload is the bare delimiter, and the reader recovers nothing from it |
| Protocol.ToMessage | window_terminal/__init__.py:123-124 | the command object carries the handle's uuid and the command's name, and its arg is null exactly for close |
| Protocol.Payload | window_terminal/__init__.py:126 | the encoded command object is never empty |
| Protocol.EncodeCommand | window_terminal/__init__.py:118-128 | the bytes sent for one command contain the delimiter only at their end |
| Protocol.DecodeMessage | window_terminal/__init__.py:273-274 | a piece decodes to a command object only if it is non-empty and a whole number of base64 quanta, and a piece that is not base64 fails as such before JSON is tried |
| Protocol.DecodeMessageEncoded | window_terminal/__init__.py:273-274 | the terminal's b64decode and json.loads give back the command object the host serialized |
| Protocol.DecodeFramesEncoded | window_terminal/__init__.py:270-274 | any sequence of command objects written to one connection is decoded by the terminal as exactly that sequence |
| Protocol.DecodeCommand | window_terminal/__init__.py:118-128 | the frame of one command decodes to exactly its command object |
| Client.ArgText | window_terminal/__init__.py:280-284 | a string argument reaches the console handler unchanged |
| Client.Dispatch | window_terminal/__init__.py:241-245 | the command table accepts exactly print, input and close, maps each to its handler with the argument, and raises for any other name |
| Client.Perform | window_terminal/__init__.py:280-289 | the reference action of each command: only close ends the terminal's loop, and for every uuid the command table sends the host's command object to exactly this action |
| Client.Step | window_terminal/__init__.py:275-278 | a command object for another uuid has no effect, and one for this terminal adds at most one action |
| Client.HandlePieces | window_terminal/__init__.py:271-278 | a handler performs at most one action per piece received |
| Client.RecvHandler | window_terminal/__init__.py:270-278 | an empty receive does nothing, and the handler performs at most one action per piece of the split; RecvHandlerEncoded is its round trip with the host's frames |
| Client.RecvHandlerEncoded | window_terminal/__init__.py:270-278 | the handler fed the host's frames for any command objects behaves as the reference over the decoded objects, so the wire layers are invisible |
| Client.OwnCommandsPerformed | window_terminal/__init__.py:275-278 | every command addressed to the terminal is performed exactly once, in the order sent, and nothing raises |
| Client.OtherCommandsIgnored | window_terminal/__init__.py:275-276 | commands addressed to another uuid have no effect at all |
| Client.CommandPerformed | window_terminal/__init__.py:118-128 | the frame for one command is performed exactly once by the terminal it is addressed to |
| Client.CommandIgnored | window_terminal/__init__.py:276 | the frame for one command has no effect on any other terminal |
| Client.InputReply | window_terminal/__init__.py:283-286 | the reply to an input command holds only base64 bytes, so it never contains a delimiter |
| Client.Receive | window_terminal/__init__.py:251-264 | a pass of the loop runs only while the close flag is clear; it ends the loop exactly after an empty receive, a connection reset or a close command; a reset or empty receive runs no handler, and any other receive runs the handler on exactly the bytes received; the terminal keeps its uuid |
| Client.OwnCommandReceived | window_terminal/__init__.py:251-262 | a receive of a command frame addressed to the terminal performs that command, and ends the loop exactly when it is close |
| Client.OtherCommandReceived | window_terminal/__init__.py:251-262 | a receive of a command frame addressed to another terminal, close included, does nothing and leaves the loop running |
| Window.New | window_terminal/__init__.py:45-61 | a new handle is well formed and unattached, has no callbacks and no result, and has every Event clear |
| Window.Open | window_terminal/__init__.py:68-72 | open fails with AlreadyFinished exactly on a finished handle, and otherwise launches the terminal with the handle's uuid and the host's address |
| Window.SendCommand | window_terminal/__init__.py:118-128 | a finished handle refuses before anything is sent; an unattached handle waits on the gate; an attached one sends a frame that decodes to exactly the command object for its uuid on its connection |
| Window.Join | window_terminal/__init__.py:76 | joining no parts gives the empty string, and joining one part gives that part |
| Window.JoinAppend | window_terminal/__init__.py:76 | joining one more part appends the separator and the part |
| Window.JoinLength | window_terminal/__init__.py:76 | the joined text holds every part once and one separator between each two |
| Window.Print | window_terminal/__init__.py:74-77 | print waits or fails exactly as a send does, and the frame it sends decodes to a print command carrying sep.join(args) + end |
| Window.PrintSends | window_terminal/__init__.py:74-77 | print on an attached handle sends the print command for sep.join(args) + end on the handle's connection |
| Window.AwaitInput | window_terminal/__init__.py:96-99 | the blocking wait returns the last result and clears the Event once the Event is set, and otherwise keeps waiting |
| Window.Input | window_terminal/__init__.py:79-103 | input sends an input command; with a callback it appends the callback and returns None; without one it waits for the result; a send that did not happen changes nothing |
| Window.Close | window_terminal/__init__.py:105-108 | close sends the close command and then sets the close flag, and it changes nothing else |
| Window.WaitClose | window_terminal/__init__.py:110-112 | wait_close returns exactly when the handle is finished |
| Window.SetConnection | window_terminal/__init__.py:114-116 | attaching stores the connection and opens the gate; only the first attach releases the lock, and a second one raises |
| Window.DeliverResult | window_terminal/__init__.py:205-208 | a delivered result is recorded and sets the input Event, and the most recently appended callback, if any, is popped and called with it |
| Window.DecodeResultOfReply | window_terminal/__init__.py:203-204 | the host decodes exactly the line the terminal encoded in its reply |
| Window.DecodeResult | window_terminal/__init__.py:203-204 | a receive decodes only if it is a whole number of base64 quanta, and it decodes to the empty string exactly when it is empty; DecodeResultOfReply is its round trip with the terminal's reply |
| Window.ReceiveResult | window_terminal/__init__.py:202-208 | a received result is delivered exactly when it decodes, and a decoding error changes nothing |
| Window.Shutdown | window_terminal/__init__.py:139-142 | shutdown drops the connection, finishes the handle and releases wait_close, keeping the handle well formed |
| Window.Apply | window_terminal/__init__.py:105-142 | an operation keeps the handle's uuid and address, and it finishes the handle exactly when it is the reader's exit; nothing unfinishes a handle |
| Window.Run | window_terminal/__init__.py:139-142 | over any sequence of operations, the handle keeps its identity and ends finished exactly when it started finished or the reader exited on the way |
| Window.RunWellFormed | window_terminal/__init__.py:114-142 | every sequence of operations keeps a handle well formed |
| Window.ApplyWellFormed | window_terminal/__init__.py:79-142 | each single operation keeps a handle well formed |
| Window.GateOpensOnlyOnAttach | window_terminal/__init__.py:114-116 | the gate, once open, stays open, only an attach opens it, and the lock is released at most once |
| Window.ApplyGate | window_terminal/__init__.py:114-116 | an operation opens the gate only if it is an attach, and none closes it |
| Window.GateReleasedExactlyOnce | window_terminal/__init__.py:57-58 | over the life of a handle the lock is released exactly once if an attach happens, and never otherwise |
| Window.SendWaitsForConnection | window_terminal/__init__.py:122-128 | a command issued before the terminal connects waits, and after the attach the same command goes out unchanged on that connection |
| Window.CallbackResultPairing | window_terminal/__init__.py:101 | a result delivered right after a callback-mode input goes to that input's callback, and the callback list is back to what it was |
| Window.CallbacksAnsweredInReverse | window_terminal/__init__.py:207-208 | with two callbacks waiting, the first result goes to the later callback and the second result to the earlier one |
| Window.TwoCallbackInputs | window_terminal/__init__.py:101 | two callback-mode inputs leave both callbacks waiting in the order asked |
| Window.InputWithCallback | window_terminal/__init__.py:100-103 | a callback-mode input on an attached handle appends its callback, returns None and leaves the handle attached |
| Window.CloseKeepsSending | window_terminal/__init__.py:105-108 | close leaves an attached handle attached, so wait_close still waits and print still sends |
| Window.BlockingInputReturnsResult | window_terminal/__init__.py:96-99 | a blocking input waits until a result is delivered, then returns that result and clears the Event |
| Window.BlockingInputAfterCallbackReturnsEarlierResult | window_terminal/__init__.py:205-206 | a result taken by a callback still sets the Event, so a later blocking input returns that earlier result at once |
| Registry.Empty | window_terminal/__init__.py:43 | the empty registry satisfies the host invariant |
| Registry.CreateWindow | window_terminal/__init__.py:144-153 | create_window registers a new handle under its uuid, leaves every other handle unchanged and keeps the host invariant |
| Registry.Announce | window_terminal/__init__.py:187-192 | an announcement attaches the connection only to a registered handle whose uuid matches the decoded bytes; an unknown uuid or undecodable bytes change nothing; every other handle stays as it was; a second attach stores the new connection on the already-open handle before failing with the lock error; the registry keeps its keys and its invariant |
| Registry.ReaderExit | window_terminal/__init__.py:215-216 | the reader's exit finishes the handle, releases wait_close and removes the uuid from the registry, raising KeyError exactly when the uuid was already gone, and leaves every other handle unchanged |
| Registry.RunReader | window_terminal/__init__.py:194-216 | the reader changes only its own handle, and it unregisters that handle exactly when it exits, leaving it finished |
| Registry.RunReaderValid | window_terminal/__init__.py:194-216 | every run of a reader keeps the host invariant |
| Registry.RunReaderDelivers | window_terminal/__init__.py:197-208 | a receive that decodes is delivered to the handle, and the reader goes on with the rest |
| Registry.RunReaderDeliversTwo | window_terminal/__init__.py:197-208 | two receives are delivered in order, and the callbacks they call are reported in that order |
| Registry.AnnounceOwnUuid | window_terminal/__init__.py:188-192 | a terminal that announces its own uuid is attached to its own handle |
| Registry.ExitedWindowCannotBeAttached | window_terminal/__init__.py:191 | once its reader has exited, a uuid is refused by any later announcement |
| Scenarios.Started | window_terminal/__init__.py:151-152 | after create_window and the terminal's announcement, the handle is registered, attached to that terminal's connection and otherwise fresh |
| Scenarios.PrintReachesTerminal | window_terminal/__init__.py:74-77 | print on a started window writes exactly sep.join(args) + end on its own console and nothing on any other |
| Scenarios.PrintHello | window_terminal/__init__.py:74 | print('hello') shows "hello\n" on the window's console |
| Scenarios.ReplyNotEmpty | window_terminal/__init__.py:285 | a non-empty line gives a non-empty reply |
| Scenarios.BlockingInputRoundTrip | window_terminal/__init__.py:93-99 | a blocking input prompts the terminal with exactly the prompt, and once the reply is received it returns the line that was typed |
| Scenarios.EmptyAnswerNeverArrives | window_terminal/__init__.py:283-286 | the reply to an empty line is empty, so the reader receives nothing and the blocking input keeps waiting |
| Scenarios.Transmitted | window_terminal/__init__.py:286 | a send of no bytes reaches the reader as nothing, and any other send reaches it as one receive |
| Scenarios.CallbackAnswersSwapped | window_terminal/__init__.py:207-208 | two callback-mode inputs answered in order have their answers delivered to the callbacks swapped |
| Scenarios.ReaderAnswersInReverse | window_terminal/__init__.py:207-208 | two replies received while two callbacks wait go to them in reverse order |
| Scenarios.AbruptClose | window_terminal/__init__.py:210-216 | when the terminal's connection ends, the handle is unregistered, wait_close returns, and print and open then fail with AlreadyFinished |
| Scenarios.PrintAfterCloseStillSends | window_terminal/__init__.py:105-108 | close makes the terminal end its loop, but the handle is not finished, so print still sends |
| Scenarios.MalformedReplyStrandsWindow | window_terminal/__init__.py:203 | a receive of base64 characters whose count is not a multiple of four, which b64decode rejects, ends the reader before cleanup, so the window stays registered and wait_close keeps waiting |
| Corrected.FramedReply | window_terminal/__init__.py:285-286 | a framed reply is never empty, even for the empty line, and its only delimiter is at its end |
| Corrected.DecodeReplies | window_terminal/__init__.py:197-204 | the host reads one reply for each delimiter received |
| Corrected.DecodeFramedReplies | window_terminal/__init__.py:283-286 | the host recovers every framed answer, the empty line included, in order |
| Corrected.DecodeFramedReply | window_terminal/__init__.py:283-286 | one framed reply carries exactly its line |
| Corrected.DeliverInOrder | window_terminal/__init__.py:205-208 | the oldest waiting callback takes the result; with none waiting, the result is recorded and wakes the blocking input |
| Corrected.CallbacksAnsweredInOrder | window_terminal/__init__.py:207-208 | the k-th result goes to the k-th callback appended, and the blocking input state is untouched |
| Corrected.ReceiveReplies | window_terminal/__init__.py:202-208 | a receive is delivered exactly when its framed replies decode, and each reply is delivered in order |
| Corrected.FramedAnswerArrives | window_terminal/__init__.py:96-99 | with framed replies, every answer reaches a blocking input, the empty line included |
| Corrected.DeliverOne | window_terminal/__init__.py:205-206 | with no callback waiting, one result is recorded and wakes the blocking input |
| Corrected.BlockingInputAfterCallbackWaits | window_terminal/__init__.py:205-208 | a result taken by a callback does not wake a later blocking input, which returns the answer to its own prompt |

## Left out

- Sockets, `accept`, `recv`, `send`, socket timeouts and the listener thread (`_start_server`, `_listen_server`, `stop_server`, `reset_server`). A connection is an opaque number. What a reader receives is a parameter: the `Received` sequence.
- Threads, `Lock` and `Event` timing. A call that would block is reported as waiting (`Blocked`, `AwaitingResult`, `WaitClose` returning false). Interleavings of concurrent callers are not modelled.
- The terminal's per-receive handler threads: `Client.Receive` runs the handler in line.
- Process launching (`_start_window`, `PROCESSES_COMMANDS`, the platform check). `Window.Open` returns the launch request: uuid, ip and port.
- uuid generation. `Registry.CreateWindow` requires a uuid that is not already in use, which is what `uuid.uuid1()` provides.
- `str()` of non-string arguments to `print` and `input`. `Window.Print` and `Window.Input` take strings.
- Strings are sequences of Unicode scalar values. Lone surrogates, which `encode('utf-8')` rejects, cannot be expressed.
- Base64.Decode: decodes strictly, and CPython's leniencies in non-validating `b64decode` are not modelled; among them are these three. It discards bytes outside the alphabet. It skips a `=` at the first or second position of a quad: `Y=Q==` decodes to `b'a'` there. It also stops at the first pad group that completes a quantum and ignores everything after it: the merged receive `YQ==Yg==` decodes to `b'a'` there but is an error here. So the model reports some receives as errors that the reader accepts. Scenarios.MalformedReplyStrandsWindow is stated only for receives that both reject.
- Json.Loads: accepts only the layout `json.dumps` writes for the command object. Other whitespace, key orders, missing keys and other JSON values are reported as errors, not parsed.
- Protocol.DecodeMessage: decodes the JSON bytes as strict UTF-8. `json.loads` given bytes behaves differently in three ways, none of them modelled. It detects UTF-16 and UTF-32. It strips a leading byte order mark (`utf-8-sig`). It decodes with `surrogatepass`, so encoded lone surrogates are accepted. The host never writes any of these, so the round trip is unaffected.
- Registry.RunReader: every callback returns. A callback that raises is not modelled. Such an exception would escape the `try` around line 208, which catches only `ConnectionResetError` and `socket.timeout`. It would end the reader before `_shutdown()` and `del` (lines 215-216), stranding the window as a malformed receive does (Scenarios.MalformedReplyStrandsWindow).
- Registry.RunReader: decodes each receive as one whole reply, as the reader does. It does not model how the network may merge two replies into one receive or split one reply across two.
- Client.RecvHandler: decodes each receive whole, as `_recv_handler` does. A frame split across two receives is not reassembled.

## Findings

| source | as written | input that shows it | evidently intended | confidence | as-written member | corrected member |
|---|---|---|---|---|---|---|
| window_terminal/__init__.py:283-286 | the reply is `b64encode(line)` with no delimiter, and `b64encode(b'')` is empty, so `send(b'')` transmits nothing | a blocking `input()` answered with an empty line (the user presses Enter) never returns | every answer, the empty one included, reaches the host, for example framed with `b'\r\n'` like the host's commands | not executed | Scenarios.EmptyAnswerNeverArrives | Corrected.DecodeFramedReplies |
| window_terminal/__init__.py:207-208 | `_input_callbacks.pop()` takes the most recently appended callback | `input('a', cb1)`, `input('b', cb2)`, then answers "x" and "y": cb2 gets "x" and cb1 gets "y" | each answer goes to the callback of the prompt it answers, first in first out | not executed | Scenarios.CallbackAnswersSwapped | Corrected.CallbacksAnsweredInOrder |
| window_terminal/__init__.py:205-206 | every delivered result sets `_wait_input`, even when a callback consumes it | `input('a', cb)`, answer "x", then a blocking `input('b')` returns "x" at once | a result taken by a callback does not wake a blocking `input()` | not executed | Window.BlockingInputAfterCallbackReturnsEarlierResult | Corrected.BlockingInputAfterCallbackWaits |

=== FILE: base64.dfy ===
/** Base64 as defined in section 4 of RFC 4648 (the alphabet A-Z a-z 0-9 + /,
    with '=' padding), which is what Python's b64encode produces and
    b64decode reverses. The host applies it to every command before framing,
    and the terminal applies it to every input reply. */
module Base64 {
  import opened Bytes
  import opened Results

  /** The value of one character of the alphabet. */
  type sextet = x: int | 0 <= x < 64

  /** The padding character '='. */
  const Pad: byte := 61

  /** The alphabet character that encodes `v` (Table 1 of RFC 4648). */
  function Char(v: sextet): (b: byte)
    ensures Value(b) == Some(v)
  {
    if v < 26 then 65 + v              // 'A'..'Z'
    else if v < 52 then 97 + (v - 26)  // 'a'..'z'
    else if v < 62 then 48 + (v - 52)  // '0'..'9'
    else if v == 62 then 43            // '+'
    else 47                            // '/'
  }

  /** The value of an alphabet character, or None for any other byte. */
  function Value(b: byte): Option<sextet>
  {
    if 65 <= b <= 90 then Some(b - 65)
    else if 97 <= b <= 122 then Some(b - 97 + 26)
    else if 48 <= b <= 57 then Some(b - 48 + 52)
    else if b == 43 then Some(62)
    else if b == 47 then Some(63)
    else None
  }

  /** A byte that can occur in encoded output: an alphabet character or '='. */
  predicate IsEncodedByte(b: byte) {
    Value(b).Some? || b == Pad
  }

  /** Every character of the alphabet is the encoding of exactly its value. */
  lemma CharOfValue(b: byte)
    ensures Value(b).Some? ==> Char(Value(b).value) == b
  {
  }

  /** Neither CR nor LF belongs to the encoded alphabet, which is what makes
      b'\r\n' a safe frame delimiter. */
  lemma NoDelimiterBytes(b: byte)
    requires IsEncodedByte(b)
    ensures b != CR && b != LF
  {
  }

  /** Three bytes as four characters (section 4 of RFC 4648: 24 bits read as
      four 6-bit groups, most significant first). */
  function EncodeGroup(b0: byte, b1: byte, b2: byte): seq<byte>
  {
    [Char(b0 / 4), Char((b0 % 4) * 16 + b1 / 16), Char((b1 % 16) * 4 + b2 / 64), Char(b2 % 64)]
  }

  /** The three bytes whose 24 bits are the four 6-bit groups. */
  function DecodeGroup(c0: sextet, c1: sextet, c2: sextet, c3: sextet): seq<byte>
  {
    [c0 * 4 + c1 / 16, (c1 % 16) * 16 + c2 / 4, (c2 % 4) * 64 + c3]
  }

  /** b64encode: whole groups of three bytes, then a final group of one or two
      bytes padded with '=' to four characters. */
  function Encode(s: seq<byte>): (r: seq<byte>)
    ensures forall i :: 0 <= i < |r| ==> IsEncodedByte(r[i])
    ensures r == [] <==> s == []
    decreases |s|
  {
    if |s| == 0 then []
    else if |s| == 1 then [Char(s[0] / 4), Char((s[0] % 4) * 16), Pad, Pad]
    else if |s| == 2 then [Char(s[0] / 4), Char((s[0] % 4) * 16 + s[1] / 16), Char((s[1] % 16) * 4), Pad]
    else EncodeGroup(s[0], s[1], s[2]) + Encode(s[3..])
  }

  /** Four characters for every group of three bytes, the last group
      rounded up. */
  lemma {:induction false} EncodeLength(s: seq<byte>)
    ensures |Encode(s)| == 4 * ((|s| + 2) / 3)
    decreases |s|
  {
    if |s| >= 3 {
      EncodeLength(s[3..]);
      assert |Encode(s)| == 4 + |Encode(s[3..])|;
      GroupCount(|s|);
    }
  }

  /** One more group of three bytes is one more group of four characters. */
  lemma GroupCount(n: int)
    requires n >= 3
    ensures 4 * ((n + 2) / 3) == 4 + 4 * ((n - 3 + 2) / 3)
  {
  }

  /** One quantum of four characters. Padding is accepted only in the last
      quantum; the unused low bits of a padded quantum are ignored, as
      b64decode ignores them. */
  function DecodeQuad(q: seq<byte>, last: bool): (r: Result<seq<byte>>)
    requires |q| == 4
    ensures r.Ok? ==> 1 <= |r.value| <= 3
    ensures r.Ok? && |r.value| < 3 ==> last && q[3] == Pad
    ensures r.Err? ==> r.error == InvalidBase64
  {
    var v0, v1, v2, v3 := Value(q[0]), Value(q[1]), Value(q[2]), Value(q[3]);
    if v0.None? || v1.None? then Err(InvalidBase64)
    else if v2.Some? && v3.Some? then Ok(DecodeGroup(v0.value, v1.value, v2.value, v3.value))
    else if last && q[2] == Pad && q[3] == Pad then Ok([v0.value * 4 + v1.value / 16])
    else if last && v2.Some? && q[3] == Pad then
      Ok([v0.value * 4 + v1.value / 16, (v1.value % 16) * 16 + v2.value / 4])
    else Err(InvalidBase64)
  }

  /** b64decode of a canonical encoding: a length that is a multiple of four,
      alphabet characters only, '=' only at the end. */
  function Decode(s: seq<byte>): (r: Result<seq<byte>>)
    ensures r.Ok? ==> (r.value == [] <==> s == [])
    ensures r.Err? ==> r.error == InvalidBase64
    decreases |s|
  {
    if |s| == 0 then Ok([])
    else if |s| < 4 then Err(InvalidBase64)
    else
      var head :- DecodeQuad(s[..4], |s| == 4);
      var tail :- Decode(s[4..]);
      Ok(head + tail)
  }

  /** Only a whole number of quanta decodes, to three bytes per quantum
      except for at most two fewer in the padded last one. */
  lemma {:induction false} DecodeLength(s: seq<byte>)
    requires Decode(s).Ok?
    ensures |s| % 4 == 0
    ensures 3 * |s| <= 4 * |Decode(s).value| + 8 && 4 * |Decode(s).value| <= 3 * |s|
    decreases |s|
  {
    if |s| > 0 {
      var head := DecodeQuad(s[..4], |s| == 4).value;
      var tail := Decode(s[4..]).value;
      DecodeLength(s[4..]);
      assert Decode(s).value == head + tail;
      QuantumArithmetic(|s|, |s[4..]|, |head|, |tail|);
    }
  }

  /** The length arithmetic of one more quantum in front of a decoded rest. */
  lemma QuantumArithmetic(n: int, m: int, h: int, t: int)
    requires n == m + 4 && 1 <= h <= 3 && (h < 3 ==> m == 0 && t == 0)
    requires m % 4 == 0 && 3 * m <= 4 * t + 8 && 4 * t <= 3 * m
    ensures n % 4 == 0 && 3 * n <= 4 * (h + t) + 8 && 4 * (h + t) <= 3 * n
  {
  }

  /** Decoding the four characters of a whole group gives back its three bytes. */
  lemma GroupRoundTrip(b0: byte, b1: byte, b2: byte)
    ensures DecodeQuad(EncodeGroup(b0, b1, b2), false) == Ok([b0, b1, b2])
    ensures DecodeQuad(EncodeGroup(b0, b1, b2), true) == Ok([b0, b1, b2])
  {
    var q := EncodeGroup(b0, b1, b2);
    var c0, c1, c2, c3 := b0 / 4, (b0 % 4) * 16 + b1 / 16, (b1 % 16) * 4 + b2 / 64, b2 % 64;
    assert Value(q[0]) == Some(c0) && Value(q[1]) == Some(c1);
    assert Value(q[2]) == Some(c2) && Value(q[3]) == Some(c3);
    GroupBits(b0, b1, b2);
  }

  /** The arithmetic of a whole group: the four 6-bit groups of three bytes
      put back together give the three bytes. */
  lemma GroupBits(b0: byte, b1: byte, b2: byte)
    ensures DecodeGroup(b0 / 4, (b0 % 4) * 16 + b1 / 16, (b1 % 16) * 4 + b2 / 64, b2 % 64) == [b0, b1, b2]
  {
    var c1 := (b0 % 4) * 16 + b1 / 16;
    var c2 := (b1 % 16) * 4 + b2 / 64;
    assert c1 / 16 == b0 % 4 && c1 % 16 == b1 / 16;
    assert c2 / 4 == b1 % 16 && c2 % 4 == b2 / 64;
  }

  /** Decoding a quantum followed by more input. */
  lemma DecodeQuadThen(q: seq<byte>, v: seq<byte>, rest: seq<byte>, t: seq<byte>)
    requires |q| == 4 && DecodeQuad(q, rest == []) == Ok(v) && Decode(rest) == Ok(t)
    ensures Decode(q + rest) == Ok(v + t)
  {
    assert (q + rest)[..4] == q && (q + rest)[4..] == rest;
  }

  lemma EncodeOne(b0: byte)
    ensures Decode(Encode([b0])) == Ok([b0])
  {
    var e := Encode([b0]);
    var c1 := (b0 % 4) * 16;
    assert c1 / 16 == b0 % 4;
    assert DecodeQuad(e, true) == Ok([b0]);
    DecodeQuadThen(e, [b0], [], []);
    assert e + [] == e && [b0] + [] == [b0];
  }

  lemma EncodeTwo(b0: byte, b1: byte)
    ensures Decode(Encode([b0, b1])) == Ok([b0, b1])
  {
    var e := Encode([b0, b1]);
    var c1 := (b0 % 4) * 16 + b1 / 16;
    assert c1 / 16 == b0 % 4 && c1 % 16 == b1 / 16;
    assert DecodeQuad(e, true) == Ok([b0, b1]);
    DecodeQuadThen(e, [b0, b1], [], []);
    assert e + [] == e && [b0, b1] + [] == [b0, b1];
  }

  /** The central property of the codec: b64decode(b64encode(s)) == s. */
  lemma {:induction false} DecodeEncode(s: seq<byte>)
    ensures Decode(Encode(s)) == Ok(s)
    decreases |s|
  {
    if |s| == 1 {
      EncodeOne(s[0]);
      assert s == [s[0]];
    } else if |s| == 2 {
      EncodeTwo(s[0], s[1]);
      assert s == [s[0], s[1]];
    } else if |s| >= 3 {
      var g := EncodeGroup(s[0], s[1], s[2]);
      var rest := Encode(s[3..]);
      assert Encode(s) == g + rest;
      GroupRoundTrip(s[0], s[1], s[2]);
      DecodeEncode(s[3..]);
      DecodeQuadThen(g, [s[0], s[1], s[2]], rest, s[3..]);
      assert s == [s[0], s[1], s[2]] + s[3..];
    }
  }
}

=== FILE: bytes.dfy ===
/** Bytes as the Python code sees them: integers 0..255, and the two bytes
    of the frame delimiter b'\r\n'. */
module Bytes {

  type byte = x: int | 0 <= x < 256

  const CR: byte := 13
  const LF: byte := 10
}

=== FILE: client.dfy ===
/** The terminal side (WindowTerminalClient): the handler that decodes the
    bytes of one receive and dispatches every command addressed to this
    terminal through its three-entry command table
    (window_terminal/__init__.py:241-245, 270-289). Reading from and writing
    to the local console are the actions it returns. */
module Client {
  import opened Bytes
  import opened Results
  import Base64
  import Utf8
  import Json
  import Framing
  import Protocol

  /** What the terminal does for one dispatched command: write text verbatim
      to its console, prompt for a line of input, or end its read loop. */
  datatype Action = Write(text: string) | ReadLine(prompt: string) | Terminate

  /** The text a handler writes for its argument: print(arg, sep='', end='')
      and input(arg) render a JSON null, which arrives as None, as "None". */
  function ArgText(arg: Option<string>): (t: string)
    ensures arg.Some? ==> t == arg.value
  {
    match arg
    case Some(text) => text
    case None => "None"
  }

  /** self._commands[command](arg). */
  function Dispatch(m: Json.Message): (r: Result<Action>)
    ensures r.Ok? <==> m.command in {"print", "input", "close"}
    ensures r.Err? ==> r.error == UnknownCommand(m.command)
    ensures m.command == "print" ==> r == Ok(Write(ArgText(m.arg)))
    ensures m.command == "input" ==> r == Ok(ReadLine(ArgText(m.arg)))
    ensures m.command == "close" ==> r == Ok(Terminate)
  {
    if m.command == "print" then Ok(Write(ArgText(m.arg)))
    else if m.command == "input" then Ok(ReadLine(ArgText(m.arg)))
    else if m.command == "close" then Ok(Terminate)
    else Err(UnknownCommand(m.command))
  }

  /** What the terminal does for a host command, stated independently of
      the wire format. */
  function Perform(cmd: Protocol.Command): (a: Action)
    ensures a.Terminate? <==> cmd.Close?
    ensures forall uuid :: Dispatch(Protocol.ToMessage(uuid, cmd)) == Ok(a)
  {
    match cmd
    case Print(text) => Write(text)
    case Input(prompt) => ReadLine(prompt)
    case Close => Terminate
  }

  /** The actions a handler performed, and the exception that ended it early,
      if any. */
  datatype Handled = Handled(actions: seq<Action>, failure: Option<Error>)

  function Prepend(a: Action, h: Handled): (r: Handled)
    ensures r.actions == [a] + h.actions && r.failure == h.failure
  {
    Handled([a] + h.actions, h.failure)
  }

  /** The handling of one decoded command object, before the handling of
      the pieces after it: a command object for another uuid has no effect,
      one for this terminal is dispatched, and an unknown command raises,
      which ends the handler. */
  function Step(self: string, m: Json.Message, later: Handled): (r: Handled)
    ensures |r.actions| <= |later.actions| + 1
    ensures m.uuid != self ==> r == later
  {
    if m.uuid != self then later
    else match Dispatch(m)
      case Err(e) => Handled([], Some(e))
      case Ok(a) => Prepend(a, later)
  }

  /** The loop of _recv_handler over the pieces of one receive: empty pieces
      are skipped, and the first piece that fails to decode raises, ending
      the handler after the actions already performed. */
  function HandlePieces(self: string, pieces: seq<seq<byte>>): (r: Handled)
    ensures |r.actions| <= |pieces|
    decreases |pieces|
  {
    if |pieces| == 0 then Handled([], None)
    else if pieces[0] == [] then HandlePieces(self, pieces[1..])
    else match Protocol.DecodeMessage(pieces[0])
      case Err(e) => Handled([], Some(e))
      case Ok(m) => Step(self, m, HandlePieces(self, pieces[1..]))
  }

  /** _recv_handler(messages) of the terminal whose uuid is `self`. */
  function RecvHandler(self: string, data: seq<byte>): (r: Handled)
    ensures data == [] ==> r == Handled([], None)
    ensures |r.actions| <= |Framing.Split(data)|
  {
    var pieces := Framing.Split(data);
    assert data == [] ==> HandlePieces(self, pieces) == Handled([], None) by {
      if data == [] {
        assert pieces == [[]] && pieces[1..] == [];
        assert HandlePieces(self, pieces) == HandlePieces(self, []);
      }
    }
    HandlePieces(self, pieces)
  }

  /** The reference behaviour over decoded command objects: the ones for
      other uuids have no effect, each of ours is dispatched once, in order,
      and an unknown command stops the handler. */
  function Expected(self: string, msgs: seq<Json.Message>): (r: Handled)
    decreases |msgs|
  {
    if |msgs| == 0 then Handled([], None)
    else Step(self, msgs[0], Expected(self, msgs[1..]))
  }

  lemma {:induction false} HandleEncodedPieces(self: string, msgs: seq<Json.Message>)
    ensures HandlePieces(self, Framing.EncodedAll(Protocol.Payloads(msgs)) + [[]]) == Expected(self, msgs)
    decreases |msgs|
  {
    var enc := Framing.EncodedAll(Protocol.Payloads(msgs));
    var pieces := enc + [[]];
    if |msgs| == 0 {
      assert pieces == [[]];
    } else {
      var tail := Framing.EncodedAll(Protocol.Payloads(msgs[1..]));
      assert Protocol.Payloads(msgs)[1..] == Protocol.Payloads(msgs[1..]);
      assert enc[1..] == tail;
      assert pieces[1..] == tail + [[]];
      Protocol.DecodeMessageEncoded(msgs[0]);
      assert pieces[0] == Base64.Encode(Protocol.Payload(msgs[0])) != [];
      assert Protocol.DecodeMessage(pieces[0]) == Ok(msgs[0]);
      HandleEncodedPieces(self, msgs[1..]);
      assert HandlePieces(self, pieces) == Step(self, msgs[0], HandlePieces(self, tail + [[]]));
    }
  }

  /** The terminal's handler, fed the bytes the host wrote for any sequence
      of command objects, behaves exactly as the reference: the framing,
      base64, UTF-8 and JSON layers are invisible. */
  lemma RecvHandlerEncoded(self: string, msgs: seq<Json.Message>)
    ensures RecvHandler(self, Protocol.EncodeMessages(msgs)) == Expected(self, msgs)
  {
    Framing.SplitFrames(Protocol.Payloads(msgs));
    HandleEncodedPieces(self, msgs);
  }

  /** The command objects the host writes for a sequence of commands to the
      window `uuid`. */
  function CommandMessages(uuid: string, cmds: seq<Protocol.Command>): (msgs: seq<Json.Message>)
    ensures |msgs| == |cmds|
    ensures forall k :: 0 <= k < |msgs| ==> msgs[k] == Protocol.ToMessage(uuid, cmds[k])
  {
    seq(|cmds|, k requires 0 <= k < |cmds| => Protocol.ToMessage(uuid, cmds[k]))
  }

  function PerformAll(cmds: seq<Protocol.Command>): (actions: seq<Action>)
    ensures |actions| == |cmds|
    ensures forall k :: 0 <= k < |cmds| ==> actions[k] == Perform(cmds[k])
  {
    seq(|cmds|, k requires 0 <= k < |cmds| => Perform(cmds[k]))
  }

  lemma {:induction false} ExpectedOwn(uuid: string, cmds: seq<Protocol.Command>)
    ensures Expected(uuid, CommandMessages(uuid, cmds)) == Handled(PerformAll(cmds), None)
    decreases |cmds|
  {
    if |cmds| > 0 {
      var msgs := CommandMessages(uuid, cmds);
      CommandMessagesFirst(uuid, cmds);
      ExpectedOwn(uuid, cmds[1..]);
      PerformAllFirst(cmds);
      assert Expected(uuid, msgs) == Prepend(Perform(cmds[0]), Expected(uuid, msgs[1..]));
    }
  }

  lemma CommandMessagesFirst(uuid: string, cmds: seq<Protocol.Command>)
    requires |cmds| > 0
    ensures CommandMessages(uuid, cmds)[0] == Protocol.ToMessage(uuid, cmds[0])
    ensures CommandMessages(uuid, cmds)[1..] == CommandMessages(uuid, cmds[1..])
  {
  }

  lemma PerformAllFirst(cmds: seq<Protocol.Command>)
    requires |cmds| > 0
    ensures PerformAll(cmds) == [Perform(cmds[0])] + PerformAll(cmds[1..])
  {
  }

  lemma {:induction false} ExpectedOther(self: string, uuid: string, cmds: seq<Protocol.Command>)
    requires self != uuid
    ensures Expected(self, CommandMessages(uuid, cmds)) == Handled([], None)
    decreases |cmds|
  {
    if |cmds| > 0 {
      CommandMessagesFirst(uuid, cmds);
      ExpectedOther(self, uuid, cmds[1..]);
    }
  }

  /** The terminal performs every command addressed to it exactly once, in
      the order sent, and raises nothing. */
  lemma OwnCommandsPerformed(uuid: string, cmds: seq<Protocol.Command>)
    ensures RecvHandler(uuid, Protocol.EncodeMessages(CommandMessages(uuid, cmds)))
         == Handled(PerformAll(cmds), None)
  {
    RecvHandlerEncoded(uuid, CommandMessages(uuid, cmds));
    ExpectedOwn(uuid, cmds);
  }

  /** Commands addressed to another uuid have no effect at all. */
  lemma OtherCommandsIgnored(self: string, uuid: string, cmds: seq<Protocol.Command>)
    requires self != uuid
    ensures RecvHandler(self, Protocol.EncodeMessages(CommandMessages(uuid, cmds))) == Handled([], None)
  {
    RecvHandlerEncoded(self, CommandMessages(uuid, cmds));
    ExpectedOther(self, uuid, cmds);
  }

  /** The frame _send_command writes for one command is performed, once,
      by the terminal it is addressed to. */
  lemma CommandPerformed(uuid: string, cmd: Protocol.Command)
    ensures RecvHandler(uuid, Protocol.EncodeCommand(uuid, cmd)) == Handled([Perform(cmd)], None)
  {
    CommandFrame(uuid, cmd);
    OwnCommandsPerformed(uuid, [cmd]);
    SinglePerform(cmd);
  }

  lemma SinglePerform(cmd: Protocol.Command)
    ensures PerformAll([cmd]) == [Perform(cmd)]
  {
  }

  /** The same frame has no effect on any other terminal. */
  lemma CommandIgnored(self: string, uuid: string, cmd: Protocol.Command)
    requires self != uuid
    ensures RecvHandler(self, Protocol.EncodeCommand(uuid, cmd)) == Handled([], None)
  {
    CommandFrame(uuid, cmd);
    OtherCommandsIgnored(self, uuid, [cmd]);
  }

  /** The frame of one command is the stream of its single command object. */
  lemma CommandFrame(uuid: string, cmd: Protocol.Command)
    ensures Protocol.EncodeCommand(uuid, cmd) == Protocol.EncodeMessages(CommandMessages(uuid, [cmd]))
  {
    SingleCommandMessage(uuid, cmd);
    Protocol.EncodeSingle(uuid, cmd);
  }

  lemma SingleCommandMessage(uuid: string, cmd: Protocol.Command)
    ensures CommandMessages(uuid, [cmd]) == [Protocol.ToMessage(uuid, cmd)]
  {
  }

  /** What _input_response sends back for the line the user typed:
      b64encode of its UTF-8 bytes, with no delimiter. */
  function InputReply(line: string): (reply: seq<byte>)
    ensures forall i :: 0 <= i < |reply| ==> Base64.IsEncodedByte(reply[i])
  {
    Base64.Encode(Utf8.Encode(line))
  }

  /** The terminal's state: its uuid and its close flag. */
  datatype Terminal = Terminal(uuid: string, closed: bool)

  /** What one recv of the terminal's socket gives: bytes (empty when the
      host closed its end), or a ConnectionResetError. */
  datatype Incoming = Data(data: seq<byte>) | Reset

  /** One pass of the read loop of run(), which runs only while the close
      flag is clear: an empty receive or a reset means the connection is
      gone and sets the close flag; otherwise the handler runs on the data,
      and a close command sets the flag that ends the loop. */
  function Receive(t: Terminal, incoming: Incoming): (r: (Terminal, Handled))
    requires !t.closed
    ensures r.0.uuid == t.uuid
    ensures r.0.closed <==> incoming == Reset || incoming == Data([]) || Terminate in r.1.actions
    ensures !incoming.Data? || incoming.data == [] ==> r.1 == Handled([], None)
    ensures incoming.Data? && incoming.data != [] ==> r.1 == RecvHandler(t.uuid, incoming.data)
  {
    match incoming
    case Reset => (t.(closed := true), Handled([], None))
    case Data(data) =>
      if data == [] then (t.(closed := true), Handled([], None))
      else
        var h := RecvHandler(t.uuid, data);
        (t.(closed := Terminate in h.actions), h)
  }

  /** A command frame addressed to the terminal is performed, and the loop
      ends exactly when that command is close. */
  lemma OwnCommandReceived(t: Terminal, cmd: Protocol.Command)
    requires !t.closed
    ensures Receive(t, Data(Protocol.EncodeCommand(t.uuid, cmd))).1 == Handled([Perform(cmd)], None)
    ensures Receive(t, Data(Protocol.EncodeCommand(t.uuid, cmd))).0.closed <==> cmd.Close?
  {
    CommandPerformed(t.uuid, cmd);
    assert Protocol.EncodeCommand(t.uuid, cmd) != [];
  }

  /** A command frame addressed to another terminal, close included, does
      nothing and leaves the loop running. */
  lemma OtherCommandReceived(t: Terminal, uuid: string, cmd: Protocol.Command)
    requires !t.closed && t.uuid != uuid
    ensures Receive(t, Data(Protocol.EncodeCommand(uuid, cmd))) == (t, Handled([], None))
  {
    CommandIgnored(t.uuid, uuid, cmd);
    assert Protocol.EncodeCommand(uuid, cmd) != [];
  }
}

=== FILE: corrected.dfy ===
/** Corrected definitions for the three defects recorded under Findings in
    README.md, each with the intended behaviour proved about it:
    input replies framed like the host's commands, so that an empty line
    still arrives (window_terminal/__init__.py:283-286, 197-204), and
    results delivered to the oldest waiting callback, waking a blocking
    input() only when no callback takes them
    (window_terminal/__init__.py:205-208). The as-written behaviour is
    modelled in Client, Window and Registry. */
module Corrected {
  import opened Bytes
  import opened Results
  import Utf8
  import Framing
  import Window

  /** The reply to one input command framed like the host's commands:
      b64encode(line.encode('utf-8')) + b'\r\n'. It is never empty, even for
      the empty line, and its only delimiter is its end. */
  function FramedReply(line: string): (reply: seq<byte>)
    ensures |reply| >= 2 && reply[|reply| - 2..] == Framing.Delimiter
    ensures forall i :: Framing.DelimiterAt(reply, i) <==> i == |reply| - 2
  {
    Framing.Frame(Utf8.Encode(line))
  }

  /** The UTF-8 bytes of every line, in order. */
  function EncodeLines(lines: seq<string>): (r: seq<seq<byte>>)
    ensures |r| == |lines|
    ensures forall k :: 0 <= k < |r| ==> r[k] == Utf8.Encode(lines[k])
  {
    seq(|lines|, k requires 0 <= k < |lines| => Utf8.Encode(lines[k]))
  }

  /** What the terminal writes for a sequence of answers. */
  function FramedReplies(lines: seq<string>): seq<byte> {
    Framing.Frames(EncodeLines(lines))
  }

  /** Each piece decoded as one reply, failing at the first that is not one. */
  function DecodeLines(pieces: seq<seq<byte>>): (r: Result<seq<string>>)
    ensures r.Ok? ==> |r.value| == |pieces|
    decreases |pieces|
  {
    if |pieces| == 0 then Ok([])
    else
      var head :- Window.DecodeResult(pieces[0]);
      var tail :- DecodeLines(pieces[1..]);
      Ok([head] + tail)
  }

  /** The host's side of the framed replies: every piece that a delimiter
      ends is one reply, empty or not; the piece after the last delimiter is
      not a complete reply. */
  function DecodeReplies(raw: seq<byte>): (r: Result<seq<string>>)
    ensures r.Ok? ==> |r.value| == |Framing.Split(raw)| - 1
  {
    var parts := Framing.Split(raw);
    DecodeLines(parts[..|parts| - 1])
  }

  lemma {:induction false} DecodeLinesEncoded(lines: seq<string>)
    ensures DecodeLines(Framing.EncodedAll(EncodeLines(lines))) == Ok(lines)
    decreases |lines|
  {
    if |lines| > 0 {
      Window.DecodeResultOfReply(lines[0]);
      assert Framing.EncodedAll(EncodeLines(lines))[1..] == Framing.EncodedAll(EncodeLines(lines[1..]));
      DecodeLinesEncoded(lines[1..]);
      assert lines == [lines[0]] + lines[1..];
    }
  }

  /** The reply round trip: whatever answers the terminal sends, in one
      receive or several, the host recovers every one of them, the empty
      line included, in order. */
  lemma DecodeFramedReplies(lines: seq<string>)
    ensures DecodeReplies(FramedReplies(lines)) == Ok(lines)
  {
    var parts := Framing.Split(FramedReplies(lines));
    Framing.SplitFrames(EncodeLines(lines));
    assert parts[..|parts| - 1] == Framing.EncodedAll(EncodeLines(lines));
    DecodeLinesEncoded(lines);
  }

  /** A single framed reply carries exactly its line. */
  lemma DecodeFramedReply(line: string)
    ensures DecodeReplies(FramedReply(line)) == Ok([line])
  {
    assert EncodeLines([line]) == [Utf8.Encode(line)];
    Framing.FramesSingle(Utf8.Encode(line));
    DecodeFramedReplies([line]);
  }

  /** The delivery of one result in the order the prompts were sent: the
      oldest waiting callback takes it; a result no callback is waiting for
      is recorded and wakes the blocking input(). */
  function DeliverInOrder(h: Window.Handle, text: string): (r: (Window.Handle, Option<Window.Invocation>))
    ensures |h.callbacks| == 0 ==>
      r.1.None? && r.0 == h.(lastResult := Some(text), inputReady := true)
    ensures |h.callbacks| > 0 ==>
      r.1 == Some(Window.Invocation(h.callbacks[0], text)) &&
      [r.1.value.callback] + r.0.callbacks == h.callbacks &&
      r.0 == h.(callbacks := r.0.callbacks)
  {
    if |h.callbacks| == 0 then (h.(lastResult := Some(text), inputReady := true), None)
    else (h.(callbacks := h.callbacks[1..]), Some(Window.Invocation(h.callbacks[0], text)))
  }

  /** Results delivered one after another, with the callbacks they invoke. */
  function DeliverAll(h: Window.Handle, texts: seq<string>): (r: (Window.Handle, seq<Window.Invocation>))
    decreases |texts|
  {
    if |texts| == 0 then (h, [])
    else
      var first := DeliverInOrder(h, texts[0]);
      var rest := DeliverAll(first.0, texts[1..]);
      (rest.0, (if first.1.Some? then [first.1.value] else []) + rest.1)
  }

  /** Pending callbacks are answered first in, first out: the k-th result
      goes to the k-th callback appended, and the blocking input() state is
      untouched while callbacks take the results. */
  lemma {:induction false} CallbacksAnsweredInOrder(h: Window.Handle, texts: seq<string>)
    requires |texts| <= |h.callbacks|
    ensures var r := DeliverAll(h, texts);
      |r.1| == |texts| &&
      (forall k :: 0 <= k < |texts| ==> r.1[k] == Window.Invocation(h.callbacks[k], texts[k])) &&
      r.0 == h.(callbacks := h.callbacks[|texts|..])
    decreases |texts|
  {
    if |texts| > 0 {
      var first := DeliverInOrder(h, texts[0]);
      CallbacksAnsweredInOrder(first.0, texts[1..]);
      assert first.0.callbacks[|texts| - 1..] == h.callbacks[|texts|..];
    }
  }

  /** The host's side of one receive of framed replies: decode every
      complete reply and deliver each in order. */
  function ReceiveReplies(h: Window.Handle, raw: seq<byte>): (r: Result<(Window.Handle, seq<Window.Invocation>)>)
    ensures r.Ok? <==> DecodeReplies(raw).Ok?
    ensures r.Ok? ==> r.value == DeliverAll(h, DecodeReplies(raw).value)
  {
    var lines :- DecodeReplies(raw);
    Ok(DeliverAll(h, lines))
  }

  /** Every answer reaches a blocking input(), the empty line included. */
  lemma FramedAnswerArrives(h: Window.Handle, prompt: string, line: string)
    requires Window.WellFormed(h) && Window.PhaseOf(h) == Window.Attached && !h.inputReady && h.callbacks == []
    ensures var call := Window.Input(h, prompt, None);
      var received := ReceiveReplies(call.handle, FramedReply(line));
      FramedReply(line) != [] &&
      call.result == Window.AwaitingResult && received.Ok? && received.value.1 == [] &&
      Window.AwaitInput(received.value.0).1 == Window.Returned(Some(line))
  {
    var call := Window.Input(h, prompt, None);
    assert call.handle == h && call.result == Window.AwaitingResult;
    DecodeFramedReply(line);
    DeliverOne(h, line);
  }

  /** With no callback waiting, one result is recorded and wakes input(). */
  lemma DeliverOne(h: Window.Handle, line: string)
    requires h.callbacks == []
    ensures DeliverAll(h, [line]) == (h.(lastResult := Some(line), inputReady := true), [])
  {
    var first := DeliverInOrder(h, line);
    assert first.1.None? && first.0 == h.(lastResult := Some(line), inputReady := true);
    assert DeliverAll(first.0, []) == (first.0, []);
    assert [line][1..] == [];
    var none: seq<Window.Invocation> := [];
    assert DeliverAll(h, [line]) == (first.0, none + none);
    assert none + none == none;
  }

  /** A result taken by a callback does not wake a later blocking input():
      that call waits for, and returns, the answer to its own prompt. */
  lemma BlockingInputAfterCallbackWaits(
    h: Window.Handle, first: string, cb: Window.Callback, answer: string, second: string, own: string)
    requires Window.WellFormed(h) && Window.PhaseOf(h) == Window.Attached && !h.inputReady && h.callbacks == []
    ensures var call := Window.Input(h, first, Some(cb));
      var taken := DeliverInOrder(call.handle, answer);
      var blocking := Window.Input(taken.0, second, None);
      taken.1 == Some(Window.Invocation(cb, answer)) &&
      blocking.send.Sent? && blocking.result == Window.AwaitingResult &&
      Window.AwaitInput(DeliverInOrder(blocking.handle, own).0).1 == Window.Returned(Some(own))
  {
    var call := Window.Input(h, first, Some(cb));
    assert call.handle.callbacks == [cb];
  }
}

=== FILE: framing.dfy ===
/** The frame format of the host-to-terminal stream: every payload is
    base64-encoded and followed by the delimiter b'\r\n'
    (window_terminal/__init__.py:127); a reader splits what it received on
    the delimiter, as bytes.split does, drops the empty pieces and
    base64-decodes the rest (window_terminal/__init__.py:271-273). */
module Framing {
  import opened Bytes
  import opened Results
  import Base64

  const Delimiter: seq<byte> := [CR, LF]

  /** The delimiter starts at position `i` of `s`. */
  predicate DelimiterAt(s: seq<byte>, i: int) {
    0 <= i && i + 1 < |s| && s[i] == CR && s[i + 1] == LF
  }

  /** `s` holds no CR byte at all, so no delimiter can start inside it. */
  predicate NoCR(s: seq<byte>) {
    forall i :: 0 <= i < |s| ==> s[i] != CR
  }

  /** b64encode(payload) + b'\r\n'. The delimiter occurs in a frame exactly
      once: as its last two bytes. */
  function Frame(payload: seq<byte>): (f: seq<byte>)
    ensures |f| >= 2 && f[|f| - 2..] == Delimiter
    ensures forall i :: DelimiterAt(f, i) <==> i == |f| - 2
  {
    var e := Base64.Encode(payload);
    EncodedHasNoCR(payload);
    e + Delimiter
  }

  lemma EncodedHasNoCR(payload: seq<byte>)
    ensures NoCR(Base64.Encode(payload))
  {
    var e := Base64.Encode(payload);
    forall i | 0 <= i < |e|
      ensures e[i] != CR
    {
      Base64.NoDelimiterBytes(e[i]);
    }
  }

  /** The bytes a sender writes for a sequence of payloads, in order. */
  function Frames(payloads: seq<seq<byte>>): (s: seq<byte>)
    decreases |payloads|
  {
    if |payloads| == 0 then [] else Frame(payloads[0]) + Frames(payloads[1..])
  }

  lemma FramesSingle(payload: seq<byte>)
    ensures Frames([payload]) == Frame(payload)
  {
    assert [payload][1..] == [];
  }

  /** The position of the first delimiter in `s`, or |s| when there is none. */
  function FindDelimiter(s: seq<byte>): (i: nat)
    ensures i <= |s|
    ensures i < |s| ==> DelimiterAt(s, i)
    ensures forall j :: 0 <= j < i ==> !DelimiterAt(s, j)
    decreases |s|
  {
    if |s| < 2 then |s|
    else if s[0] == CR && s[1] == LF then 0
    else
      var k := FindDelimiter(s[1..]);
      assert forall j :: 1 <= j ==> (DelimiterAt(s, j) <==> DelimiterAt(s[1..], j - 1));
      1 + k
  }

  /** bytes.split(b'\r\n'): the pieces between delimiters, left to right,
      including empty pieces (there is always at least one piece). */
  function Split(s: seq<byte>): (parts: seq<seq<byte>>)
    ensures |parts| >= 1
    ensures forall k, i :: 0 <= k < |parts| ==> !DelimiterAt(parts[k], i)
    decreases |s|
  {
    var i := FindDelimiter(s);
    if i == |s| then [s]
    else
      var rest := Split(s[i + 2..]);
      assert forall j :: 0 <= j ==> !DelimiterAt(s[..i], j) by {
        forall j | 0 <= j ensures !DelimiterAt(s[..i], j) {
          if DelimiterAt(s[..i], j) { assert DelimiterAt(s, j); }
        }
      }
      [s[..i]] + rest
  }

  /** b'\r\n'.join(parts), the inverse of Split. */
  function Join(parts: seq<seq<byte>>): seq<byte>
    decreases |parts|
  {
    if |parts| == 0 then []
    else if |parts| == 1 then parts[0]
    else parts[0] + Delimiter + Join(parts[1..])
  }

  /** Splitting loses nothing: joining the pieces back gives the input. */
  lemma {:induction false} JoinSplit(s: seq<byte>)
    ensures Join(Split(s)) == s
    decreases |s|
  {
    var i := FindDelimiter(s);
    if i < |s| {
      var rest := Split(s[i + 2..]);
      var parts := Split(s);
      assert parts == [s[..i]] + rest;
      assert Join(parts) == s[..i] + Delimiter + Join(rest) by {
        assert |parts| >= 2 && parts[0] == s[..i] && parts[1..] == rest;
      }
      JoinSplit(s[i + 2..]);
      assert s == s[..i] + Delimiter + s[i + 2..] by {
        assert DelimiterAt(s, i);
      }
    }
  }

  /** The pieces the reader keeps (`if message:`), in order. */
  function NonEmpty(parts: seq<seq<byte>>): (r: seq<seq<byte>>)
    ensures |r| <= |parts|
    ensures forall k :: 0 <= k < |r| ==> r[k] != [] && r[k] in parts
    ensures forall p :: p in parts && p != [] ==> p in r
    ensures |parts| == 1 ==> r == (if parts[0] == [] then [] else parts)
    decreases |parts|
  {
    if |parts| == 0 then []
    else if parts[0] == [] then NonEmpty(parts[1..])
    else [parts[0]] + NonEmpty(parts[1..])
  }

  /** The filter distributes over concatenation: the non-empty pieces of
      two runs of pieces are those of the first, then those of the second,
      each in order. With the empty and one-piece cases of NonEmpty this
      fixes the result exactly. */
  lemma {:induction false} NonEmptyAppend(a: seq<seq<byte>>, b: seq<seq<byte>>)
    ensures NonEmpty(a + b) == NonEmpty(a) + NonEmpty(b)
    decreases |a|
  {
    if |a| > 0 {
      assert (a + b)[0] == a[0] && (a + b)[1..] == a[1..] + b;
      NonEmptyAppend(a[1..], b);
    } else {
      assert a + b == b;
    }
  }

  /** A piece with no CR followed by the delimiter is split off as one piece. */
  lemma {:induction false} SplitAfterPiece(piece: seq<byte>, rest: seq<byte>)
    requires NoCR(piece)
    ensures Split(piece + Delimiter + rest) == [piece] + Split(rest)
  {
    var s := piece + Delimiter + rest;
    FindDelimiterAfterPiece(piece, rest);
    assert s[..|piece|] == piece && s[|piece| + 2..] == rest;
  }

  lemma {:induction false} FindDelimiterAfterPiece(piece: seq<byte>, rest: seq<byte>)
    requires NoCR(piece)
    ensures FindDelimiter(piece + Delimiter + rest) == |piece|
    decreases |piece|
  {
    var s := piece + Delimiter + rest;
    if |piece| > 0 {
      assert s[1..] == piece[1..] + Delimiter + rest;
      FindDelimiterAfterPiece(piece[1..], rest);
    }
  }

  /** The encoded payloads, one per frame. */
  function EncodedAll(payloads: seq<seq<byte>>): (r: seq<seq<byte>>)
    ensures |r| == |payloads|
    ensures forall k :: 0 <= k < |r| ==> r[k] == Base64.Encode(payloads[k])
  {
    seq(|payloads|, k requires 0 <= k < |payloads| => Base64.Encode(payloads[k]))
  }

  /** The first frame of a stream is split off as the encoded payload. */
  lemma SplitFirstFrame(payloads: seq<seq<byte>>)
    requires |payloads| > 0
    ensures Split(Frames(payloads)) == [Base64.Encode(payloads[0])] + Split(Frames(payloads[1..]))
  {
    var e := Base64.Encode(payloads[0]);
    EncodedHasNoCR(payloads[0]);
    assert Frames(payloads) == e + Delimiter + Frames(payloads[1..]);
    SplitAfterPiece(e, Frames(payloads[1..]));
  }

  lemma EncodedAllFirst(payloads: seq<seq<byte>>)
    requires |payloads| > 0
    ensures EncodedAll(payloads) == [Base64.Encode(payloads[0])] + EncodedAll(payloads[1..])
  {
  }

  /** The pieces of a concatenation of frames are the encoded payloads, in
      order, followed by the empty piece after the last delimiter. */
  lemma {:induction false} SplitFrames(payloads: seq<seq<byte>>)
    ensures Split(Frames(payloads)) == EncodedAll(payloads) + [[]]
    decreases |payloads|
  {
    if |payloads| > 0 {
      var e := Base64.Encode(payloads[0]);
      var later := EncodedAll(payloads[1..]);
      SplitFirstFrame(payloads);
      SplitFrames(payloads[1..]);
      EncodedAllFirst(payloads);
      assert [e] + (later + [[]]) == ([e] + later) + [[]];
    }
  }

  lemma {:induction false} NonEmptyKeepsAll(parts: seq<seq<byte>>)
    requires forall k :: 0 <= k < |parts| ==> parts[k] != []
    ensures NonEmpty(parts + [[]]) == parts
    decreases |parts|
  {
    if |parts| > 0 {
      assert (parts + [[]])[1..] == parts[1..] + [[]];
      NonEmptyKeepsAll(parts[1..]);
      assert parts == [parts[0]] + parts[1..];
    }
  }

  /** What the terminal keeps of a stream of frames: exactly the encoded
      payloads, in order, provided no payload is empty (an empty payload
      encodes to nothing, so its frame is the bare delimiter, which the
      reader discards). */
  lemma FramesRecoverEncoded(payloads: seq<seq<byte>>)
    requires forall k :: 0 <= k < |payloads| ==> payloads[k] != []
    ensures NonEmpty(Split(Frames(payloads))) == EncodedAll(payloads)
  {
    SplitFrames(payloads);
    NonEmptyKeepsAll(EncodedAll(payloads));
  }

  /** b64decode of every kept piece, failing at the first malformed one. */
  function DecodeAll(parts: seq<seq<byte>>): (r: Result<seq<seq<byte>>>)
    ensures r.Ok? ==> |r.value| == |parts|
    decreases |parts|
  {
    if |parts| == 0 then Ok([])
    else
      var head :- Base64.Decode(parts[0]);
      var tail :- DecodeAll(parts[1..]);
      Ok([head] + tail)
  }

  /** The payloads a reader recovers from the bytes it received: the
      split, filter and b64decode of _recv_handler on their own, without
      the JSON and dispatch steps that Client.HandlePieces interleaves with
      them per piece. It states the framing round trip below at the level
      of bytes, which Protocol.DecodeFrames then lifts to command objects. */
  function DecodeStream(s: seq<byte>): (r: Result<seq<seq<byte>>>)
    ensures s == [] ==> r == Ok([])
    ensures r.Ok? ==> |r.value| <= |Split(s)|
  {
    DecodeAll(NonEmpty(Split(s)))
  }

  lemma {:induction false} DecodeAllEncoded(payloads: seq<seq<byte>>)
    ensures DecodeAll(EncodedAll(payloads)) == Ok(payloads)
    decreases |payloads|
  {
    if |payloads| > 0 {
      Base64.DecodeEncode(payloads[0]);
      assert EncodedAll(payloads)[1..] == EncodedAll(payloads[1..]) by {
        EncodedAllFirst(payloads);
      }
      DecodeAllEncoded(payloads[1..]);
      assert payloads == [payloads[0]] + payloads[1..];
    }
  }

  /** The framing round trip: a reader that receives a whole concatenation of
      frames recovers every non-empty payload, in order. */
  lemma DecodeStreamFrames(payloads: seq<seq<byte>>)
    requires forall k :: 0 <= k < |payloads| ==> payloads[k] != []
    ensures DecodeStream(Frames(payloads)) == Ok(payloads)
  {
    FramesRecoverEncoded(payloads);
    DecodeAllEncoded(payloads);
  }

  /** Why the payloads must be non-empty: the frame of an empty payload is
      the bare delimiter, and the reader recovers nothing from it. */
  lemma EmptyPayloadVanishes()
    ensures Frame([]) == Delimiter
    ensures DecodeStream(Frame([])) == Ok([])
  {
    assert Split(Delimiter) == [[]] + Split([]);
  }
}

=== FILE: json.dfy ===
/** The JSON text of a host-to-terminal command object, as
    json.dumps({'uuid': u, 'command': c, 'arg': a}) writes it with its default
    settings: keys in insertion order, separators ", " and ": ", and
    ensure_ascii escaping of strings (quotation mark, reverse solidus and the
    five short control escapes by name; every other character outside
    ' '..'~' as \uXXXX in lower-case hex, as a surrogate pair above U+FFFF).
    Loads reads that layout back the way json.loads does. */
module Json {
  import opened Results
  import Sequences

  /** The object {"uuid": ..., "command": ..., "arg": ...}; `arg` is None for
      JSON null (the close command) and Some(text) for a JSON string. */
  datatype Message = Message(uuid: string, command: string, arg: Option<string>)

  const Backspace: char := 8 as char
  const FormFeed: char := 12 as char

  /** A character ensure_ascii writes as itself: printable ASCII other than
      the quotation mark and the reverse solidus. */
  predicate IsPlain(c: char) {
    ' ' <= c <= '~' && c != '"' && c != '\\'
  }

  function HexDigit(d: int): (c: char)
    requires 0 <= d < 16
    ensures DigitValue(c) == Some(d)
  {
    if d < 10 then (48 + d) as char else (97 + d - 10) as char
  }

  /** The value of a hexadecimal digit of either case. */
  function DigitValue(c: char): (r: Option<int>)
    ensures r.Some? ==> 0 <= r.value < 16
  {
    if '0' <= c <= '9' then Some(c as int - 48)
    else if 'a' <= c <= 'f' then Some(c as int - 97 + 10)
    else if 'A' <= c <= 'F' then Some(c as int - 65 + 10)
    else None
  }

  /** Four lower-case hex digits of a 16-bit value. */
  function Hex4(n: int): (r: string)
    requires 0 <= n < 0x10000
    ensures |r| == 4
  {
    var r1 := n % 4096;
    var r2 := r1 % 256;
    [HexDigit(n / 4096), HexDigit(r1 / 256), HexDigit(r2 / 16), HexDigit(r2 % 16)]
  }

  function ParseHex4(s: string): (r: Option<int>)
    requires |s| == 4
    ensures r.Some? ==> 0 <= r.value < 0x10000
  {
    match (DigitValue(s[0]), DigitValue(s[1]), DigitValue(s[2]), DigitValue(s[3]))
    case (Some(d0), Some(d1), Some(d2), Some(d3)) => Some(d0 * 4096 + d1 * 256 + d2 * 16 + d3)
    case _ => None
  }

  lemma ParseHex4Hex4(n: int)
    requires 0 <= n < 0x10000
    ensures ParseHex4(Hex4(n)) == Some(n)
  {
    var r1 := n % 4096;
    var r2 := r1 % 256;
    assert r2 / 16 * 16 + r2 % 16 == r2;
    assert r1 / 256 * 256 + r2 == r1;
  }

  /** The ensure_ascii escape of one character. */
  function EscapeChar(c: char): (r: string)
    ensures 0 < |r| <= 12
    ensures IsPlain(c) <==> r == [c]
  {
    var n := c as int;
    if IsPlain(c) then [c]
    else if c == '"' then "\\\""
    else if c == '\\' then "\\\\"
    else if c == '\n' then "\\n"
    else if c == '\r' then "\\r"
    else if c == '\t' then "\\t"
    else if c == Backspace then "\\b"
    else if c == FormFeed then "\\f"
    else if n < 0x10000 then "\\u" + Hex4(n)
    else
      var v := n - 0x10000;
      "\\u" + Hex4(0xD800 + v / 1024) + "\\u" + Hex4(0xDC00 + v % 1024)
  }

  /** The body of a JSON string literal (without its quotation marks). */
  function Escape(s: string): (r: string)
    ensures |s| <= |r|
    decreases |s|
  {
    if |s| == 0 then [] else EscapeChar(s[0]) + Escape(s[1..])
  }

  function Quote(s: string): string {
    "\"" + (Escape(s) + "\"")
  }

  function ArgJson(arg: Option<string>): string {
    match arg
    case None => "null"
    case Some(t) => Quote(t)
  }

  const UuidKey: string := "{\"uuid\": "
  const CommandKey: string := ", \"command\": "
  const ArgKey: string := ", \"arg\": "

  /** json.dumps of the command object. */
  function Dumps(m: Message): (r: string)
    ensures UuidKey <= r && r[|r| - 1] == '}'
  {
    UuidKey + (Quote(m.uuid) + (CommandKey + (Quote(m.command) + (ArgKey + (ArgJson(m.arg) + "}")))))
  }

  /** The character a two-character escape stands for. */
  function ShortEscape(e: char): Option<char>
  {
    if e == '"' then Some('"')
    else if e == '\\' then Some('\\')
    else if e == '/' then Some('/')
    else if e == 'b' then Some(Backspace)
    else if e == 'f' then Some(FormFeed)
    else if e == 'n' then Some('\n')
    else if e == 'r' then Some('\r')
    else if e == 't' then Some('\t')
    else None
  }

  /** One escape sequence at the head of `s`: the character it stands for and
      its length. A \uXXXX naming a high surrogate must be followed by a
      \uXXXX naming a low surrogate, and the pair stands for one character. */
  function ParseEscape(s: string): (r: Result<(char, nat)>)
    requires 2 <= |s| && s[0] == '\\'
    ensures r.Ok? ==> 2 <= r.value.1 <= |s|
  {
    if s[1] != 'u' then
      match ShortEscape(s[1])
      case None => Err(InvalidJson)
      case Some(c) => Ok((c, 2))
    else if |s| < 6 then Err(InvalidJson)
    else match ParseHex4(s[2..6])
      case None => Err(InvalidJson)
      case Some(v) =>
        if 0xD800 <= v < 0xDC00 then
          if |s| < 12 || s[6] != '\\' || s[7] != 'u' then Err(InvalidJson)
          else match ParseHex4(s[8..12])
            case None => Err(InvalidJson)
            case Some(w) =>
              if 0xDC00 <= w < 0xE000 then Ok(((0x10000 + (v - 0xD800) * 1024 + (w - 0xDC00)) as char, 12))
              else Err(InvalidJson)
        else if 0xDC00 <= v < 0xE000 then Err(InvalidJson)
        else Ok((v as char, 6))
  }

  /** Prefixes a character to the text a successful parse produced. */
  function Cons(c: char, r: Result<(string, string)>): Result<(string, string)>
  {
    match r
    case Ok((text, rest)) => Ok(([c] + text, rest))
    case Err(e) => Err(e)
  }

  /** The body of a string literal up to and including its closing quotation
      mark: the text it denotes and the input after the mark. A raw control
      character is an error, as in json.loads' default strict mode. */
  function ParseString(s: string): (r: Result<(string, string)>)
    ensures r.Ok? ==> |r.value.1| < |s| && r.value.1 == s[|s| - |r.value.1|..]
    decreases |s|
  {
    if |s| == 0 then Err(InvalidJson)
    else if s[0] == '"' then Ok(([], s[1..]))
    else if s[0] == '\\' then
      if |s| < 2 then Err(InvalidJson)
      else match ParseEscape(s)
        case Err(e) => Err(e)
        case Ok((c, k)) => Cons(c, ParseString(s[k..]))
    else if s[0] < ' ' then Err(InvalidJson)
    else Cons(s[0], ParseString(s[1..]))
  }

  /** The input after `prefix`, which must come first. */
  function Expect(prefix: string, s: string): (r: Result<string>)
    ensures r.Ok? <==> prefix <= s
    ensures r.Ok? ==> s == prefix + r.value
  {
    if prefix <= s then Ok(s[|prefix|..]) else Err(InvalidJson)
  }

  function ParseQuoted(s: string): Result<(string, string)>
  {
    var rest :- Expect("\"", s);
    ParseString(rest)
  }

  function ParseArg(s: string): Result<(Option<string>, string)>
  {
    if "null" <= s then Ok((None, s[4..]))
    else
      var p :- ParseQuoted(s);
      Ok((Some(p.0), p.1))
  }

  /** json.loads of a command object in the layout Dumps writes: the three
      members in order, then the closing brace. */
  function Loads(text: string): (r: Result<Message>)
    ensures r.Ok? ==> UuidKey <= text
  {
    var fields :- Expect(UuidKey, text);
    LoadsUuid(fields)
  }

  /** The value of "uuid", then the members after it. */
  function LoadsUuid(s: string): Result<Message>
  {
    var u :- ParseQuoted(s);
    var rest :- Expect(CommandKey, u.1);
    LoadsCommand(u.0, rest)
  }

  /** The value of "command", then the member after it. */
  function LoadsCommand(uuid: string, s: string): Result<Message>
  {
    var c :- ParseQuoted(s);
    var rest :- Expect(ArgKey, c.1);
    LoadsArg(uuid, c.0, rest)
  }

  /** The value of "arg", then the end of the object. */
  function LoadsArg(uuid: string, command: string, s: string): Result<Message>
  {
    var a :- ParseArg(s);
    if a.1 == "}" then Ok(Message(uuid, command, a.0)) else Err(InvalidJson)
  }

  /** The escape sequence of a non-plain character parses back to it. */
  lemma ParseEscapeOfChar(c: char, t: string)
    requires !IsPlain(c)
    ensures var s := EscapeChar(c) + t;
      2 <= |s| && s[0] == '\\' && ParseEscape(s) == Ok((c, |EscapeChar(c)|))
  {
    var n := c as int;
    var s := EscapeChar(c) + t;
    if c == '"' || c == '\\' || c == '\n' || c == '\r' || c == '\t' || c == Backspace || c == FormFeed {
    } else if n < 0x10000 {
      assert s[2..6] == Hex4(n);
      ParseHex4Hex4(n);
    } else {
      ParseEscapeOfPair(c, t);
    }
  }

  lemma ParseEscapeOfPair(c: char, t: string)
    requires 0x10000 <= c as int
    ensures var s := EscapeChar(c) + t;
      12 <= |s| && s[0] == '\\' && ParseEscape(s) == Ok((c, 12))
  {
    var n := c as int;
    var v := n - 0x10000;
    var hi := 0xD800 + v / 1024;
    var lo := 0xDC00 + v % 1024;
    var s := EscapeChar(c) + t;
    assert EscapeChar(c) == "\\u" + Hex4(hi) + "\\u" + Hex4(lo);
    assert s[2..6] == Hex4(hi);
    assert s[8..12] == Hex4(lo);
    SurrogateArithmetic(n);
    ParseHex4Hex4(hi);
    ParseHex4Hex4(lo);
  }

  /** The high and low surrogates of a code point above U+FFFF are in their
      ranges and together give the code point back. */
  lemma SurrogateArithmetic(n: int)
    requires 0x10000 <= n < 0x110000
    ensures var v := n - 0x10000;
      0xD800 <= 0xD800 + v / 1024 < 0xDC00 && 0xDC00 <= 0xDC00 + v % 1024 < 0xE000 &&
      0x10000 + v / 1024 * 1024 + v % 1024 == n
  {
  }

  /** The parser reads one escaped character back, whatever follows it. */
  lemma ParseEscapeChar(c: char, t: string)
    ensures ParseString(EscapeChar(c) + t) == Cons(c, ParseString(t))
  {
    var s := EscapeChar(c) + t;
    if IsPlain(c) {
      assert s[1..] == t;
    } else {
      ParseEscapeOfChar(c, t);
      assert s[|EscapeChar(c)|..] == t;
    }
  }

  /** json.loads reads back the text json.dumps escaped, stopping exactly at
      the closing quotation mark. */
  lemma ParseStringEscape(s: string, rest: string)
    ensures ParseString(Escape(s) + ("\"" + rest)) == Ok((s, rest))
  {
    ParseClosingQuote(rest);
    ParseEscaped(s, "\"" + rest, rest);
  }

  /** The closing quotation mark ends the string literal at once. */
  lemma ParseClosingQuote(rest: string)
    ensures ParseString("\"" + rest) == Ok(([], rest))
  {
    assert ("\"" + rest)[1..] == rest;
  }

  /** Escaped text followed by input on which the parser stops at once with
      nothing read: the parser reads exactly the text back. */
  lemma {:induction false} ParseEscaped(s: string, after: string, rest: string)
    requires ParseString(after) == Ok(([], rest))
    ensures ParseString(Escape(s) + after) == Ok((s, rest))
    decreases |s|
  {
    if |s| == 0 {
      assert Escape(s) + after == after;
    } else {
      var tail := Escape(s[1..]) + after;
      EscapeFirst(s, after);
      ParseEscaped(s[1..], after, rest);
      ParseAfterEscape(s[0], tail, s[1..], rest);
      Sequences.FirstAndRest(s);
    }
  }

  /** The escape of a non-empty text starts with the escape of its first
      character. */
  lemma EscapeFirst(s: string, after: string)
    requires |s| > 0
    ensures Escape(s) + after == EscapeChar(s[0]) + (Escape(s[1..]) + after)
  {
    assert Escape(s) == EscapeChar(s[0]) + Escape(s[1..]);
    Sequences.Associative(EscapeChar(s[0]), Escape(s[1..]), after);
  }

  /** An escaped character in front of text the parser reads is read too. */
  lemma ParseAfterEscape(c: char, tail: string, text: string, rest: string)
    requires ParseString(tail) == Ok((text, rest))
    ensures ParseString(EscapeChar(c) + tail) == Ok(([c] + text, rest))
  {
    ParseEscapeChar(c, tail);
  }

  lemma ParseQuotedQuote(s: string, rest: string)
    ensures ParseQuoted(Quote(s) + rest) == Ok((s, rest))
  {
    var body := Escape(s) + ("\"" + rest);
    Sequences.Associative("\"", Escape(s) + "\"", rest);
    Sequences.Associative(Escape(s), "\"", rest);
    ExpectPrefix("\"", body);
    ParseStringEscape(s, rest);
  }

  lemma ParseArgArgJson(arg: Option<string>, rest: string)
    ensures ParseArg(ArgJson(arg) + rest) == Ok((arg, rest))
  {
    match arg
    case None =>
      assert ("null" + rest)[4..] == rest;
    case Some(t) =>
      assert (Quote(t) + rest)[0] == '"';
      ParseQuotedQuote(t, rest);
  }

  lemma ExpectPrefix(prefix: string, rest: string)
    ensures Expect(prefix, prefix + rest) == Ok(rest)
  {
    assert (prefix + rest)[|prefix|..] == rest;
  }

  lemma LoadsArgJson(uuid: string, command: string, arg: Option<string>)
    ensures LoadsArg(uuid, command, ArgJson(arg) + "}") == Ok(Message(uuid, command, arg))
  {
    ParseArgArgJson(arg, "}");
  }

  lemma LoadsCommandQuote(uuid: string, command: string, arg: Option<string>)
    ensures LoadsCommand(uuid, Quote(command) + (ArgKey + (ArgJson(arg) + "}"))) == Ok(Message(uuid, command, arg))
  {
    var tail := ArgJson(arg) + "}";
    ParseQuotedQuote(command, ArgKey + tail);
    ExpectPrefix(ArgKey, tail);
    LoadsArgJson(uuid, command, arg);
  }

  lemma LoadsUuidQuote(m: Message)
    ensures LoadsUuid(Quote(m.uuid) + (CommandKey + (Quote(m.command) + (ArgKey + (ArgJson(m.arg) + "}"))))) == Ok(m)
  {
    var tail := Quote(m.command) + (ArgKey + (ArgJson(m.arg) + "}"));
    ParseQuotedQuote(m.uuid, CommandKey + tail);
    ExpectPrefix(CommandKey, tail);
    LoadsCommandQuote(m.uuid, m.command, m.arg);
  }

  /** json.loads(json.dumps(m)) == m for every command object. */
  lemma LoadsDumps(m: Message)
    ensures Loads(Dumps(m)) == Ok(m)
  {
    var fields := Quote(m.uuid) + (CommandKey + (Quote(m.command) + (ArgKey + (ArgJson(m.arg) + "}"))));
    ExpectPrefix(UuidKey, fields);
    LoadsUuidQuote(m);
  }
}

=== FILE: protocol.dfy ===
/** The command protocol from host to terminal: the three commands, the
    command object that carries them, and its wire form
    b64encode(json.dumps({'uuid', 'command', 'arg'}).encode('utf-8')) + b'\r\n'
    (window_terminal/__init__.py:118-128), read back by the terminal with
    b64decode, json.loads and the three keys (window_terminal/__init__.py:270-277). */
module Protocol {
  import opened Bytes
  import opened Results
  import Base64
  import Utf8
  import Json
  import Framing
  import Sequences

  /** The host's command vocabulary. */
  datatype Command = Print(text: string) | Input(prompt: string) | Close

  /** The name the host writes in the 'command' field. */
  function Name(cmd: Command): string {
    match cmd
    case Print(_) => "print"
    case Input(_) => "input"
    case Close => "close"
  }

  /** The command object _send_command builds: print and input carry their
      text as 'arg', close leaves 'arg' at its default None (JSON null). */
  function ToMessage(uuid: string, cmd: Command): (m: Json.Message)
    ensures m.uuid == uuid && m.command == Name(cmd)
    ensures m.arg.None? <==> cmd.Close?
  {
    match cmd
    case Print(text) => Json.Message(uuid, "print", Some(text))
    case Input(prompt) => Json.Message(uuid, "input", Some(prompt))
    case Close => Json.Message(uuid, "close", None)
  }

  /** json.dumps(...).encode('utf-8'): never empty, since it starts with '{'. */
  function Payload(m: Json.Message): (p: seq<byte>)
    ensures p != []
  {
    Utf8.Encode(Json.Dumps(m))
  }

  /** The bytes _send_command writes to the connection for one command. */
  function EncodeCommand(uuid: string, cmd: Command): (frame: seq<byte>)
    ensures forall i :: Framing.DelimiterAt(frame, i) <==> i == |frame| - 2
  {
    Framing.Frame(Payload(ToMessage(uuid, cmd)))
  }

  /** What the terminal makes of one non-empty piece of the stream:
      b64decode, then json.loads of the UTF-8 text. */
  function DecodeMessage(piece: seq<byte>): (r: Result<Json.Message>)
    ensures r.Ok? ==> piece != [] && |piece| % 4 == 0
    ensures Base64.Decode(piece).Err? ==> r == Err(InvalidBase64)
  {
    var bytes :- Base64.Decode(piece);
    Base64.DecodeLength(piece);
    var text :- Utf8.Decode(bytes);
    Json.Loads(text)
  }

  lemma DecodeMessageEncoded(m: Json.Message)
    ensures DecodeMessage(Base64.Encode(Payload(m))) == Ok(m)
  {
    Base64.DecodeEncode(Payload(m));
    Utf8.DecodeEncode(Json.Dumps(m));
    Json.LoadsDumps(m);
  }

  /** The payload of every message, in order. */
  function Payloads(msgs: seq<Json.Message>): (ps: seq<seq<byte>>)
    ensures |ps| == |msgs|
    ensures forall k :: 0 <= k < |ps| ==> ps[k] == Payload(msgs[k]) && ps[k] != []
  {
    seq(|msgs|, k requires 0 <= k < |msgs| => Payload(msgs[k]))
  }

  /** The bytes written for a sequence of command objects on one connection. */
  function EncodeMessages(msgs: seq<Json.Message>): seq<byte>
  {
    Framing.Frames(Payloads(msgs))
  }

  /** Every piece decoded to a command object, failing at the first that is
      not one. */
  function DecodeEach(pieces: seq<seq<byte>>): (r: Result<seq<Json.Message>>)
    ensures r.Ok? ==> |r.value| == |pieces|
    decreases |pieces|
  {
    if |pieces| == 0 then Ok([])
    else
      var head :- DecodeMessage(pieces[0]);
      var tail :- DecodeEach(pieces[1..]);
      Ok([head] + tail)
  }

  /** The command objects carried by the bytes of one receive. */
  function DecodeFrames(s: seq<byte>): Result<seq<Json.Message>>
  {
    DecodeEach(Framing.NonEmpty(Framing.Split(s)))
  }

  lemma {:induction false} DecodeEachEncoded(msgs: seq<Json.Message>)
    ensures DecodeEach(Framing.EncodedAll(Payloads(msgs))) == Ok(msgs)
    decreases |msgs|
  {
    if |msgs| > 0 {
      var pieces := Framing.EncodedAll(Payloads(msgs));
      assert pieces[0] == Base64.Encode(Payload(msgs[0])) && pieces[1..] == Framing.EncodedAll(Payloads(msgs[1..])) by {
        assert Payloads(msgs)[1..] == Payloads(msgs[1..]);
        Framing.EncodedAllFirst(Payloads(msgs));
      }
      DecodeMessageEncoded(msgs[0]);
      DecodeEachEncoded(msgs[1..]);
      DecodeEachFirst(pieces);
      Sequences.FirstAndRest(msgs);
    }
  }

  lemma DecodeEachFirst(pieces: seq<seq<byte>>)
    requires |pieces| > 0 && DecodeMessage(pieces[0]).Ok? && DecodeEach(pieces[1..]).Ok?
    ensures DecodeEach(pieces) == Ok([DecodeMessage(pieces[0]).value] + DecodeEach(pieces[1..]).value)
  {
  }

  /** The protocol round trip: whatever sequence of command objects the host
      writes, a terminal that receives the bytes decodes exactly that
      sequence, in order. */
  lemma DecodeFramesEncoded(msgs: seq<Json.Message>)
    ensures DecodeFrames(EncodeMessages(msgs)) == Ok(msgs)
  {
    Framing.FramesRecoverEncoded(Payloads(msgs));
    DecodeEachEncoded(msgs);
  }

  /** The frame of a single command is the stream of its command object. */
  lemma EncodeSingle(uuid: string, cmd: Command)
    ensures EncodeCommand(uuid, cmd) == EncodeMessages([ToMessage(uuid, cmd)])
  {
    var m := ToMessage(uuid, cmd);
    assert Payloads([m]) == [Payload(m)];
    Framing.FramesSingle(Payload(m));
  }

  /** The frame of a single command carries exactly its command object. */
  lemma DecodeCommand(uuid: string, cmd: Command)
    ensures DecodeFrames(EncodeCommand(uuid, cmd)) == Ok([ToMessage(uuid, cmd)])
  {
    EncodeSingle(uuid, cmd);
    DecodeFramesEncoded([ToMessage(uuid, cmd)]);
  }
}

=== FILE: registry.dfy ===
/** The host's registry of windows (WindowTerminal._windows) and the part of
    each connection's reader that touches it: insertion by create_window
    (window_terminal/__init__.py:145-153), lookup and attach when a terminal
    announces its uuid (window_terminal/__init__.py:187-192), delivery of each
    received result and removal when the reader exits
    (window_terminal/__init__.py:194-216). */
module Registry {
  import opened Bytes
  import opened Results
  import Utf8
  import Window

  /** The host process: every WindowTerminal object created so far, by uuid
      (the objects the caller holds), and the uuids currently registered in
      _windows, whose values are those same objects. */
  datatype Host = Host(handles: map<string, Window.Handle>, windows: set<string>)

  /** The invariant of the host: registered uuids name created handles, each
      handle is stored under its own uuid and is well formed, and no
      registered handle is finished. */
  ghost predicate Valid(host: Host) {
    && host.windows <= host.handles.Keys
    && (forall id :: id in host.handles ==> host.handles[id].uuid == id && Window.WellFormed(host.handles[id]))
    && (forall id :: id in host.windows ==> !host.handles[id].finished)
  }

  /** Nothing created yet. */
  function Empty(): (host: Host)
    ensures Valid(host)
  {
    Host(map[], {})
  }

  /** create_window with a fresh uuid (uuid1 never repeats): the new handle
      is registered under its uuid, and nothing else changes. */
  function CreateWindow(host: Host, id: string, address: Window.Address): (r: Host)
    requires id !in host.handles
    ensures id in r.windows && id in r.handles && r.handles[id] == Window.New(id, address)
    ensures r.windows == host.windows + {id} && r.handles.Keys == host.handles.Keys + {id}
    ensures forall other :: other in host.handles ==> other in r.handles && r.handles[other] == host.handles[other]
    ensures Valid(host) ==> Valid(r)
  {
    Host(host.handles[id := Window.New(id, address)], host.windows + {id})
  }

  /** The outcome of a terminal's announcement: the host after it, and the
      uuid whose handle it attached to, or the exception that ended the
      reader (an undecodable or unknown uuid, or a second attach). */
  datatype Announced = Announced(host: Host, result: Result<string>)

  /** The start of _listen_connection: decode the announced uuid, look up its
      window and attach the connection to it. */
  function Announce(host: Host, raw: seq<byte>, connection: Window.Connection): (r: Announced)
    ensures r.result.Ok? ==> var id := r.result.value;
      Utf8.Decode(raw) == Ok(id) && id in host.windows && id in host.handles && id in r.host.handles &&
      r.host.handles[id] == host.handles[id].(connection := Some(connection), gateOpen := true)
    ensures r.result.Ok? && r.result.value in host.handles ==> !host.handles[r.result.value].gateOpen
    ensures r.result.Err? && r.result.error != LockNotHeld ==> r.host == host
    ensures Utf8.Decode(raw).Ok? && Utf8.Decode(raw).value !in host.windows ==> r == Announced(host, Err(UnknownIdentifier))
    ensures r.host.windows == host.windows && r.host.handles.Keys == host.handles.Keys
    ensures forall other :: other in host.handles && (Utf8.Decode(raw).Err? || other != Utf8.Decode(raw).value) ==>
      r.host.handles[other] == host.handles[other]
    ensures r.result == Err(LockNotHeld) ==> Utf8.Decode(raw).Ok? && var id := Utf8.Decode(raw).value;
      id in host.handles && id in r.host.handles &&
      host.handles[id].gateOpen && r.host.handles[id] == host.handles[id].(connection := Some(connection))
    ensures Valid(host) ==> Valid(r.host)
  {
    match Utf8.Decode(raw)
    case Err(e) => Announced(host, Err(e))
    case Ok(id) =>
      if id !in host.windows || id !in host.handles then Announced(host, Err(UnknownIdentifier))
      else
        var (h', failure) := Window.SetConnection(host.handles[id], connection);
        var host' := host.(handles := host.handles[id := h']);
        Announced(host', if failure.Some? then Err(failure.value) else Ok(id))
  }

  /** The end of _listen_connection: shut the handle down and delete its
      uuid from _windows (a KeyError if it is already gone). */
  function ReaderExit(host: Host, id: string): (r: (Host, Option<Error>))
    requires id in host.handles
    ensures id !in r.0.windows && id in r.0.handles
    ensures Window.PhaseOf(r.0.handles[id]) == Window.Finished && Window.WaitClose(r.0.handles[id])
    ensures r.0.windows == host.windows - {id} && r.0.handles.Keys == host.handles.Keys
    ensures forall other :: other in host.handles && other != id ==> r.0.handles[other] == host.handles[other]
    ensures r.1.None? <==> id in host.windows
    ensures Valid(host) ==> Valid(r.0)
  {
    var host' := Host(host.handles[id := Window.Shutdown(host.handles[id])], host.windows - {id});
    (host', if id in host.windows then None else Some(NotRegistered))
  }

  /** What one recv of the reader returns: data (empty when the terminal
      closed its end), a ConnectionResetError, or nothing because the
      server's shutdown flag was seen first. */
  datatype Received = Data(bytes: seq<byte>) | ConnectionReset | ServerStopped

  /** How a reader's run ended: it is still reading, it left its loop and
      cleaned up, or an exception from decoding a result ended its thread
      before any cleanup. */
  datatype ReaderEnd = StillReading | Exited | Crashed(error: Error)

  datatype ReaderRun = ReaderRun(host: Host, invoked: seq<Window.Invocation>, end: ReaderEnd)

  function Invoked(inv: Option<Window.Invocation>): seq<Window.Invocation> {
    match inv
    case None => []
    case Some(i) => [i]
  }

  /** The loop of _listen_connection for the window `id`, over what its
      connection delivers. */
  function RunReader(host: Host, id: string, received: seq<Received>): (r: ReaderRun)
    requires id in host.handles
    ensures id in r.host.handles && r.host.handles.Keys == host.handles.Keys
    ensures forall other :: other in host.handles && other != id ==> r.host.handles[other] == host.handles[other]
    ensures r.end.Exited? ==> r.host.windows == host.windows - {id} && r.host.handles[id].finished
    ensures !r.end.Exited? ==> r.host.windows == host.windows
    decreases |received|
  {
    if |received| == 0 then ReaderRun(host, [], StillReading)
    else match received[0]
      case Data(bytes) =>
        if bytes == [] then ReaderRun(ReaderExit(host, id).0, [], Exited)
        else (match Window.ReceiveResult(host.handles[id], bytes)
          case Err(e) => ReaderRun(host, [], Crashed(e))
          case Ok((h', inv)) =>
            var rest := RunReader(host.(handles := host.handles[id := h']), id, received[1..]);
            ReaderRun(rest.host, Invoked(inv) + rest.invoked, rest.end))
      case ConnectionReset => ReaderRun(ReaderExit(host, id).0, [], Exited)
      case ServerStopped => ReaderRun(ReaderExit(host, id).0, [], Exited)
  }

  /** Replacing a handle by a well-formed one with the same uuid and the
      same finished flag keeps the host valid. */
  lemma ReplaceHandleValid(host: Host, id: string, h: Window.Handle)
    requires Valid(host) && id in host.handles
    requires h.uuid == id && Window.WellFormed(h) && h.finished == host.handles[id].finished
    ensures Valid(host.(handles := host.handles[id := h]))
  {
  }

  /** The reader keeps the host valid: deliveries keep every handle well
      formed and registered handles unfinished, and its exit unregisters the
      handle it finishes. */
  lemma {:induction false} RunReaderValid(host: Host, id: string, received: seq<Received>)
    requires Valid(host) && id in host.handles
    ensures Valid(RunReader(host, id, received).host)
    decreases |received|
  {
    if |received| > 0 && received[0].Data? && received[0].bytes != [] {
      var h := host.handles[id];
      var delivered := Window.ReceiveResult(h, received[0].bytes);
      if delivered.Ok? {
        var h' := delivered.value.0;
        assert h' == h.(lastResult := h'.lastResult, inputReady := h'.inputReady, callbacks := h'.callbacks);
        ReplaceHandleValid(host, id, h');
        RunReaderValid(host.(handles := host.handles[id := h']), id, received[1..]);
      }
    }
  }

  /** One step of the reader: a receive that decodes to `text` delivers
      it to the handle, and the reader goes on with the rest. */
  lemma RunReaderDelivers(host: Host, id: string, raw: seq<byte>, text: string, rest: seq<Received>)
    requires id in host.handles && raw != [] && Window.DecodeResult(raw) == Ok(text)
    ensures var delivered := Window.DeliverResult(host.handles[id], text);
      var after := RunReader(host.(handles := host.handles[id := delivered.0]), id, rest);
      RunReader(host, id, [Data(raw)] + rest) == ReaderRun(after.host, Invoked(delivered.1) + after.invoked, after.end)
  {
    assert ([Data(raw)] + rest)[1..] == rest;
  }

  /** A single receive that decodes to `text` delivers it and the reader
      keeps reading. */
  lemma RunReaderDeliversOne(host: Host, id: string, raw: seq<byte>, text: string)
    requires id in host.handles && raw != [] && Window.DecodeResult(raw) == Ok(text)
    ensures var delivered := Window.DeliverResult(host.handles[id], text);
      RunReader(host, id, [Data(raw)])
        == ReaderRun(host.(handles := host.handles[id := delivered.0]), Invoked(delivered.1), StillReading)
  {
    RunReaderDelivers(host, id, raw, text, []);
    assert [Data(raw)] + [] == [Data(raw)];
  }

  /** Two receives that decode to `text1` and `text2` are delivered in that
      order, and the callbacks they invoke are reported in that order. */
  lemma RunReaderDeliversTwo(host: Host, id: string, raw1: seq<byte>, text1: string, raw2: seq<byte>, text2: string)
    requires id in host.handles && raw1 != [] && raw2 != []
    requires Window.DecodeResult(raw1) == Ok(text1) && Window.DecodeResult(raw2) == Ok(text2)
    ensures var d1 := Window.DeliverResult(host.handles[id], text1);
      var d2 := Window.DeliverResult(d1.0, text2);
      var r := RunReader(host, id, [Data(raw1), Data(raw2)]);
      r.invoked == Invoked(d1.1) + Invoked(d2.1) && r.end == StillReading && r.host.handles[id] == d2.0
  {
    var d1 := Window.DeliverResult(host.handles[id], text1);
    var d2 := Window.DeliverResult(d1.0, text2);
    var after1 := host.(handles := host.handles[id := d1.0]);
    RunReaderDeliversOne(after1, id, raw2, text2);
    RunReaderDelivers(host, id, raw1, text1, [Data(raw2)]);
    assert [Data(raw1)] + [Data(raw2)] == [Data(raw1), Data(raw2)];
  }

  /** A terminal that announces its own uuid is attached to its own handle:
      the registration round trip through UTF-8. */
  lemma AnnounceOwnUuid(host: Host, id: string, connection: Window.Connection)
    requires id in host.windows && id in host.handles
    requires !host.handles[id].gateOpen && !host.handles[id].finished
    ensures var a := Announce(host, Utf8.Encode(id), connection);
      a.result == Ok(id) && a.host.handles[id].connection == Some(connection) &&
      Window.PhaseOf(a.host.handles[id]) == Window.Attached
  {
    Utf8.DecodeEncode(id);
  }

  /** Once a reader has exited, its uuid is no longer registered, so a later
      announcement of it is refused and its handle stays finished. */
  lemma ExitedWindowCannotBeAttached(host: Host, id: string, connection: Window.Connection)
    requires id in host.handles
    ensures var exited := ReaderExit(host, id).0;
      Announce(exited, Utf8.Encode(id), connection) == Announced(exited, Err(UnknownIdentifier))
  {
    Utf8.DecodeEncode(id);
  }
}

=== FILE: results.dfy ===
/** Failure-carrying values shared by every module of the model: an optional
    value, the errors the Python code raises on the paths modelled here, and a
    result that is either a value or one of those errors. */
module Results {

  datatype Option<+T> = None | Some(value: T)

  /** The exceptions of window_terminal/__init__.py that the model keeps. */
  datatype Error =
    | AlreadyFinished        // RuntimeError from open() / _send_command() on a finished window
    | NotConnected           // AttributeError: send() on a connection that is None
    | LockNotHeld            // RuntimeError: the connection lock released a second time
    | UnknownIdentifier      // KeyError: no window registered under the announced uuid
    | NotRegistered          // KeyError: the reader deletes a uuid that is no longer registered
    | InvalidBase64          // binascii.Error from b64decode
    | InvalidUtf8            // UnicodeDecodeError from bytes.decode('utf-8')
    | InvalidJson            // json.JSONDecodeError, or a missing key of the command object
    | UnknownCommand(name: string)  // KeyError from the client's command table

  datatype Result<+T> = Ok(value: T) | Err(error: Error) {

    predicate IsFailure() {
      Err?
    }

    function PropagateFailure<U>(): Result<U>
      requires Err?
    {
      Err(error)
    }

    function Extract(): T
      requires Ok?
    {
      value
    }
  }
}

=== FILE: scenarios.dfy ===
/** Whole exchanges between the host and one terminal, put together from the
    host's registry and handle operations, the wire format and the
    terminal's handler: create_window, the terminal's announcement
    (window_terminal/__init__.py:247-249), a command and what the terminal
    makes of it, and the reply the reader delivers. */
module Scenarios {
  import opened Results
  import Bytes
  import Base64
  import Utf8
  import Protocol
  import Client
  import Window
  import Registry

  /** The host after create_window(id) and the announcement of id by its
      terminal on `connection`: the window is registered, attached to that
      terminal's connection, and otherwise fresh. */
  function Started(host: Registry.Host, id: string, address: Window.Address, connection: Window.Connection): (started: Registry.Host)
    requires id !in host.handles
    ensures id in started.windows && id in started.handles
    ensures started.handles[id] == Window.New(id, address).(connection := Some(connection), gateOpen := true)
    ensures Window.WellFormed(started.handles[id]) && Window.PhaseOf(started.handles[id]) == Window.Attached
  {
    var created := Registry.CreateWindow(host, id, address);
    Registry.AnnounceOwnUuid(created, id, connection);
    Registry.Announce(created, Utf8.Encode(id), connection).host
  }

  /** print(*args, sep=sep, end=end) on a started window writes exactly
      sep.join(args) + end on its own terminal's console, and nothing on the
      console of any other terminal. */
  lemma PrintReachesTerminal(
    host: Registry.Host, id: string, address: Window.Address, connection: Window.Connection,
    args: seq<string>, sep: string, end: string, other: string)
    requires id !in host.handles && other != id
    ensures var started := Started(host, id, address, connection);
      id in started.handles &&
      var out := Window.Print(started.handles[id], args, sep, end);
      out.Sent? && out.connection == connection &&
      Client.RecvHandler(id, out.frame) == Client.Handled([Client.Write(Window.Join(sep, args) + end)], None) &&
      Client.RecvHandler(other, out.frame) == Client.Handled([], None)
  {
    Window.PrintSends(Started(host, id, address, connection).handles[id], args, sep, end);
    var cmd := Protocol.Print(Window.Join(sep, args) + end);
    Client.CommandPerformed(id, cmd);
    Client.CommandIgnored(other, id, cmd);
  }

  /** print('hello') shows "hello\n". */
  lemma PrintHello(host: Registry.Host, id: string, address: Window.Address, connection: Window.Connection)
    requires id !in host.handles
    ensures var started := Started(host, id, address, connection);
      id in started.handles &&
      var out := Window.Print(started.handles[id], ["hello"], " ", "\n");
      out.Sent? && Client.RecvHandler(id, out.frame) == Client.Handled([Client.Write("hello\n")], None)
  {
    var h := Started(host, id, address, connection).handles[id];
    var text := Window.Join(" ", ["hello"]) + "\n";
    assert text == "hello\n";
    Window.PrintSends(h, ["hello"], " ", "\n");
    Client.CommandPerformed(id, Protocol.Print(text));
  }

  /** A non-empty line encodes to a non-empty reply. */
  lemma ReplyNotEmpty(line: string)
    requires line != []
    ensures Client.InputReply(line) != []
  {
    assert |Utf8.Encode(line)| >= |line|;
  }

  /** A blocking input(prompt) on a started window: the terminal prompts
      with exactly `prompt`, and once the reader receives its reply the
      blocked call returns the line the user typed. (The empty line is the
      exception; see EmptyAnswerNeverArrives.) */
  lemma BlockingInputRoundTrip(
    host: Registry.Host, id: string, address: Window.Address, connection: Window.Connection,
    prompt: string, line: string)
    requires id !in host.handles && line != []
    ensures var started := Started(host, id, address, connection);
      id in started.handles &&
      var call := Window.Input(started.handles[id], prompt, None);
      call.send.Sent? && call.result == Window.AwaitingResult &&
      Client.RecvHandler(id, call.send.frame) == Client.Handled([Client.ReadLine(prompt)], None) &&
      var waiting := started.(handles := started.handles[id := call.handle]);
      var reader := Registry.RunReader(waiting, id, [Registry.Data(Client.InputReply(line))]);
      reader.end == Registry.StillReading && reader.invoked == [] &&
      id in reader.host.windows &&
      Window.AwaitInput(reader.host.handles[id]).1 == Window.Returned(Some(line))
  {
    var started := Started(host, id, address, connection);
    var h := started.handles[id];
    var call := Window.Input(h, prompt, None);
    assert call.send == Window.Sent(connection, Protocol.EncodeCommand(id, Protocol.Input(prompt)));
    assert call.handle == h && call.result == Window.AwaitingResult;
    Client.CommandPerformed(id, Protocol.Input(prompt));
    var waiting := started.(handles := started.handles[id := h]);
    assert Registry.RunReader(waiting, id, [Registry.Data(Client.InputReply(line))])
        == Registry.ReaderRun(waiting.(handles := waiting.handles[id := Window.DeliverResult(h, line).0]), [], Registry.StillReading) by {
      ReplyNotEmpty(line);
      Window.DecodeResultOfReply(line);
      Registry.RunReaderDeliversOne(waiting, id, Client.InputReply(line), line);
    }
  }

  /** The terminal's answer to an empty line is b64encode(b''), which is
      empty, and a send of no bytes delivers nothing to the reader: the
      reader has nothing to receive, and the blocking input() on the host
      never returns. */
  lemma EmptyAnswerNeverArrives(
    host: Registry.Host, id: string, address: Window.Address, connection: Window.Connection, prompt: string)
    requires id !in host.handles
    ensures Client.InputReply("") == []
    ensures var started := Started(host, id, address, connection);
      id in started.handles &&
      var call := Window.Input(started.handles[id], prompt, None);
      var waiting := started.(handles := started.handles[id := call.handle]);
      var reader := Registry.RunReader(waiting, id, Transmitted(Client.InputReply("")));
      call.result == Window.AwaitingResult && reader.host == waiting &&
      Window.AwaitInput(reader.host.handles[id]).1 == Window.AwaitingResult
  {
    assert Utf8.Encode("") == [];
  }

  /** What the reader receives for one send of the terminal: a send of no
      bytes transmits nothing (an empty receive would mean the peer closed). */
  function Transmitted(bytes: seq<Bytes.byte>): (received: seq<Registry.Received>)
    ensures bytes == [] <==> received == []
    ensures bytes != [] ==> received == [Registry.Data(bytes)]
  {
    if bytes == [] then [] else [Registry.Data(bytes)]
  }

  /** Two input() calls with callbacks, answered in the order they were
      asked: because the callbacks are popped from the end of the list, the
      first answer goes to the second callback and the second answer to the
      first. */
  lemma CallbackAnswersSwapped(
    host: Registry.Host, id: string, address: Window.Address, connection: Window.Connection,
    prompt1: string, cb1: Window.Callback, prompt2: string, cb2: Window.Callback, answer1: string, answer2: string)
    requires id !in host.handles && answer1 != [] && answer2 != []
    ensures var started := Started(host, id, address, connection);
      id in started.handles &&
      var asked := Window.Input(Window.Input(started.handles[id], prompt1, Some(cb1)).handle, prompt2, Some(cb2));
      var waiting := started.(handles := started.handles[id := asked.handle]);
      var reader := Registry.RunReader(waiting, id,
        [Registry.Data(Client.InputReply(answer1)), Registry.Data(Client.InputReply(answer2))]);
      reader.invoked == [Window.Invocation(cb2, answer1), Window.Invocation(cb1, answer2)]
  {
    var started := Started(host, id, address, connection);
    var h := started.handles[id];
    Window.TwoCallbackInputs(h, prompt1, cb1, prompt2, cb2);
    var asked := Window.Input(Window.Input(h, prompt1, Some(cb1)).handle, prompt2, Some(cb2));
    ReaderAnswersInReverse(started.(handles := started.handles[id := asked.handle]), id, cb1, cb2, answer1, answer2);
  }

  /** The reader's side of CallbackAnswersSwapped: two replies received
      while two callbacks wait go to them in reverse order. */
  lemma ReaderAnswersInReverse(
    waiting: Registry.Host, id: string, cb1: Window.Callback, cb2: Window.Callback, answer1: string, answer2: string)
    requires id in waiting.handles && waiting.handles[id].callbacks == [cb1, cb2]
    requires answer1 != [] && answer2 != []
    ensures Registry.RunReader(waiting, id,
        [Registry.Data(Client.InputReply(answer1)), Registry.Data(Client.InputReply(answer2))]).invoked
      == [Window.Invocation(cb2, answer1), Window.Invocation(cb1, answer2)]
  {
    ReplyNotEmpty(answer1);
    ReplyNotEmpty(answer2);
    Window.DecodeResultOfReply(answer1);
    Window.DecodeResultOfReply(answer2);
    Window.CallbacksAnsweredInReverse(waiting.handles[id], cb1, cb2, answer1, answer2);
    Registry.RunReaderDeliversTwo(waiting, id, Client.InputReply(answer1), answer1, Client.InputReply(answer2), answer2);
  }

  /** The terminal window is closed by the user (its connection ends): the
      reader shuts the handle down and unregisters it, wait_close() returns,
      and every later command fails. */
  lemma AbruptClose(
    host: Registry.Host, id: string, address: Window.Address, connection: Window.Connection,
    ending: Registry.Received, text: string)
    requires Registry.Valid(host) && id !in host.handles
    requires ending == Registry.Data([]) || ending == Registry.ConnectionReset
    ensures var started := Started(host, id, address, connection);
      var reader := Registry.RunReader(started, id, [ending]);
      var h := reader.host.handles[id];
      reader.end == Registry.Exited && id !in reader.host.windows && Registry.Valid(reader.host) &&
      Window.WaitClose(h) &&
      Window.Print(h, [text], " ", "\n") == Window.Failed(AlreadyFinished) &&
      Window.Open(h) == Err(AlreadyFinished)
  {
    Registry.RunReaderValid(Started(host, id, address, connection), id, [ending]);
  }

  /** close() only sends the close command and sets the close flag: the
      terminal ends its loop, but until its reader sees the connection end
      the handle is not finished, so print still sends. */
  lemma PrintAfterCloseStillSends(
    host: Registry.Host, id: string, address: Window.Address, connection: Window.Connection, text: string)
    requires id !in host.handles
    ensures var started := Started(host, id, address, connection);
      id in started.handles &&
      var closed := Window.Close(started.handles[id]);
      closed.1.Sent? && closed.0.closeFlag && !Window.WaitClose(closed.0) &&
      Client.RecvHandler(id, closed.1.frame) == Client.Handled([Client.Terminate], None) &&
      Window.Print(closed.0, [text], "", "").Sent?
  {
    var h := Started(host, id, address, connection).handles[id];
    var closed := Window.Close(h);
    var frame := Protocol.EncodeCommand(id, Protocol.Close);
    assert closed.1 == Window.Sent(connection, frame) &&
        closed.0.closeFlag && !Window.WaitClose(closed.0) && Window.Print(closed.0, [text], "", "").Sent? by {
      Window.CloseKeepsSending(h, [text], "", "");
    }
    assert Client.RecvHandler(id, frame) == Client.Handled([Client.Terminate], None) by {
      Client.CommandPerformed(id, Protocol.Close);
      assert Client.Perform(Protocol.Close) == Client.Terminate;
    }
  }

  /** A receive of base64 alphabet characters whose number is not a multiple
      of four is one that b64decode rejects, lenient or not (it raises for
      incorrect padding). It raises in the reader before any cleanup: the
      window stays registered and unfinished, so wait_close() keeps waiting. */
  lemma MalformedReplyStrandsWindow(
    host: Registry.Host, id: string, address: Window.Address, connection: Window.Connection, raw: seq<Bytes.byte>)
    requires id !in host.handles
    requires |raw| % 4 != 0 && forall i :: 0 <= i < |raw| ==> Base64.Value(raw[i]).Some?
    ensures var started := Started(host, id, address, connection);
      var reader := Registry.RunReader(started, id, [Registry.Data(raw)]);
      reader.end == Registry.Crashed(InvalidBase64) &&
      id in reader.host.windows && !Window.WaitClose(reader.host.handles[id])
  {
    if Base64.Decode(raw).Ok? {
      Base64.DecodeLength(raw);
    }
  }
}

=== FILE: sequences.dfy ===
/** Facts about sequences used by several round trips. */
module Sequences {
  /** A non-empty sequence is its first element followed by the rest. */
  lemma FirstAndRest<T>(s: seq<T>)
    requires |s| > 0
    ensures [s[0]] + s[1..] == s
  {
  }

  lemma Associative<T>(a: seq<T>, b: seq<T>, c: seq<T>)
    ensures (a + b) + c == a + (b + c)
  {
  }
}

=== FILE: utf8.dfy ===
/** UTF-8, as used by str.encode('utf-8') and bytes.decode('utf-8') on both
    sides of the connection. Characters are Unicode scalar values, so every
    string has an encoding; decoding is strict, as Python's default error
    handler is: overlong forms, surrogates, code points above U+10FFFF, stray
    continuation bytes and truncated sequences are errors. */
module Utf8 {
  import opened Bytes
  import opened Results
  import Sequences

  /** A continuation byte 10xxxxxx. */
  predicate IsContinuation(b: byte) {
    0x80 <= b < 0xC0
  }

  /** The one to four bytes that encode `c`, payload bits most significant first. */
  function EncodeChar(c: char): (r: seq<byte>)
    ensures 1 <= |r| <= 4
    ensures r[0] < 0x80 || 0xC0 <= r[0] < 0xF8
  {
    var n := c as int;
    if n < 0x80 then [n]
    else if n < 0x800 then [0xC0 + n / 64, 0x80 + n % 64]
    else if n < 0x10000 then
      var r1 := n % 4096;
      [0xE0 + n / 4096, 0x80 + r1 / 64, 0x80 + r1 % 64]
    else
      var r1 := n % 262144;
      var r2 := r1 % 4096;
      [0xF0 + n / 262144, 0x80 + r1 / 4096, 0x80 + r2 / 64, 0x80 + r2 % 64]
  }

  function Encode(s: string): (r: seq<byte>)
    ensures |s| <= |r| <= 4 * |s|
    decreases |s|
  {
    if |s| == 0 then [] else EncodeChar(s[0]) + Encode(s[1..])
  }

  /** The first character of `b` and the number of bytes it occupies. */
  function DecodeFirst(b: seq<byte>): (r: Result<(char, nat)>)
    requires |b| > 0
    ensures r.Ok? ==> 1 <= r.value.1 <= |b| && r.value.1 <= 4
    ensures r.Err? ==> r.error == InvalidUtf8
  {
    var b0: int := b[0];
    if b0 < 0x80 then Ok((b0 as char, 1))
    else if b0 < 0xC0 then Err(InvalidUtf8)
    else if b0 < 0xE0 then
      if |b| < 2 || !IsContinuation(b[1]) then Err(InvalidUtf8)
      else
        var n := (b0 - 0xC0) * 64 + (b[1] as int - 0x80);
        if n < 0x80 then Err(InvalidUtf8) else Ok((n as char, 2))
    else if b0 < 0xF0 then
      if |b| < 3 || !IsContinuation(b[1]) || !IsContinuation(b[2]) then Err(InvalidUtf8)
      else
        var n := (b0 - 0xE0) * 4096 + (b[1] as int - 0x80) * 64 + (b[2] as int - 0x80);
        if n < 0x800 || (0xD800 <= n < 0xE000) then Err(InvalidUtf8) else Ok((n as char, 3))
    else if b0 < 0xF8 then
      if |b| < 4 || !IsContinuation(b[1]) || !IsContinuation(b[2]) || !IsContinuation(b[3]) then Err(InvalidUtf8)
      else
        var n := (b0 - 0xF0) * 262144 + (b[1] as int - 0x80) * 4096 + (b[2] as int - 0x80) * 64 + (b[3] as int - 0x80);
        if n < 0x10000 || 0x110000 <= n then Err(InvalidUtf8) else Ok((n as char, 4))
    else Err(InvalidUtf8)
  }

  function Decode(b: seq<byte>): (r: Result<string>)
    ensures r.Ok? ==> |r.value| <= |b| <= 4 * |r.value|
    ensures r.Err? ==> r.error == InvalidUtf8
    decreases |b|
  {
    if |b| == 0 then Ok([])
    else
      var first :- DecodeFirst(b);
      var rest :- Decode(b[first.1..]);
      Ok([first.0] + rest)
  }

  /** The decoder reads back exactly the character the encoder wrote, and
      consumes exactly its bytes, whatever follows. */
  lemma DecodeEncodeChar(c: char, rest: seq<byte>)
    ensures DecodeFirst(EncodeChar(c) + rest) == Ok((c, |EncodeChar(c)|))
  {
    var n := c as int;
    var b := EncodeChar(c) + rest;
    if n < 0x80 {
    } else if n < 0x800 {
      assert (b[0] as int - 0xC0) * 64 + (b[1] as int - 0x80) == n;
    } else if n < 0x10000 {
      var r1 := n % 4096;
      assert r1 / 64 * 64 + r1 % 64 == r1;
      assert (b[0] as int - 0xE0) * 4096 + (b[1] as int - 0x80) * 64 + (b[2] as int - 0x80) == n;
    } else {
      var r1 := n % 262144;
      var r2 := r1 % 4096;
      assert r2 / 64 * 64 + r2 % 64 == r2;
      assert r1 / 4096 * 4096 + r2 == r1;
      assert n / 262144 <= 4;
      assert (b[0] as int - 0xF0) * 262144 + (b[1] as int - 0x80) * 4096 + (b[2] as int - 0x80) * 64 + (b[3] as int - 0x80) == n;
    }
  }

  /** bytes.decode('utf-8') undoes str.encode('utf-8'). */
  lemma {:induction false} DecodeEncode(s: string)
    ensures Decode(Encode(s)) == Ok(s)
    decreases |s|
  {
    if |s| > 0 {
      var head := EncodeChar(s[0]);
      var b := Encode(s);
      assert b == head + Encode(s[1..]);
      DecodeEncodeChar(s[0], Encode(s[1..]));
      assert b[|head|..] == Encode(s[1..]);
      DecodeEncode(s[1..]);
      Sequences.FirstAndRest(s);
    }
  }
}

=== FILE: window.dfy ===
/** The host-side WindowTerminal object as an immutable record, and each of
    its operations as a pure transition (window_terminal/__init__.py:45-142).
    The threading primitives become booleans: the connection lock is the
    send gate (closed at construction, opened by _set_connection), and each
    Event is a flag. A call that would wait on the lock or on an Event is
    reported as waiting instead of blocking. */
module Window {
  import opened Bytes
  import opened Results
  import Base64
  import Utf8
  import Json
  import Protocol

  /** The identity of a connected socket, and of a callback the user passed
      to input(); both are opaque to the model. */
  type Connection = nat
  type Callback = nat

  /** The host's listening address (ip, port). */
  datatype Address = Address(ip: string, port: nat)

  /** What _start_window passes to the terminal process it launches. */
  datatype SpawnRequest = SpawnRequest(uuid: string, ip: string, port: nat)

  datatype Handle = Handle(
    uuid: string,
    address: Address,
    connection: Option<Connection>,  // _connection
    gateOpen: bool,                  // _wait_connection_lock has been released
    finished: bool,                  // _finished
    callbacks: seq<Callback>,        // _input_callbacks
    lastResult: Option<string>,      // _last_result_input
    inputReady: bool,                // _wait_input is set
    closeFlag: bool,                 // _close_flag is set
    closeDone: bool                  // _wait_close is set
  )

  /** The life of a handle: created, attached to its terminal's connection,
      then finished when its reader exits. */
  datatype Phase = Unattached | Attached | Finished

  function PhaseOf(h: Handle): Phase {
    if h.finished then Finished else if h.gateOpen then Attached else Unattached
  }

  /** The states the operations keep a handle in: until it is finished, the
      gate is open exactly when a connection is attached, and wait_close()
      is released exactly when the handle is finished. */
  predicate WellFormed(h: Handle) {
    && (h.closeDone <==> h.finished)
    && (!h.finished ==> (h.gateOpen <==> h.connection.Some?))
  }

  /** WindowTerminal.__init__: no connection, the lock acquired, every
      Event clear, no callbacks, no result yet. */
  function New(uuid: string, address: Address): (h: Handle)
    ensures WellFormed(h) && PhaseOf(h) == Unattached
    ensures h.uuid == uuid && h.callbacks == [] && h.lastResult.None? && !h.inputReady && !h.closeFlag
  {
    Handle(uuid, address, None, false, false, [], None, false, false, false)
  }

  /** open(): a finished handle cannot be opened again; otherwise the
      terminal process is launched with the uuid and the host's address. */
  function Open(h: Handle): (r: Result<SpawnRequest>)
    ensures r.Err? <==> h.finished
    ensures r.Err? ==> r.error == AlreadyFinished
    ensures r.Ok? ==> r.value.uuid == h.uuid && r.value.ip == h.address.ip && r.value.port == h.address.port
  {
    if h.finished then Err(AlreadyFinished)
    else Ok(SpawnRequest(h.uuid, h.address.ip, h.address.port))
  }

  /** The fate of one _send_command call: the frame went out on the
      connection, or the caller waits on the lock until a connection is
      attached (the call has had no effect yet), or it raised. */
  datatype SendOutcome = Sent(connection: Connection, frame: seq<byte>) | Blocked | Failed(error: Error)

  /** _send_command: refuse on a finished handle before anything is sent,
      wait for the gate, then write the framed command object. */
  function SendCommand(h: Handle, cmd: Protocol.Command): (r: SendOutcome)
    ensures h.finished ==> r == Failed(AlreadyFinished)
    ensures r.Blocked? <==> !h.finished && !h.gateOpen
    ensures r.Sent? <==> !h.finished && h.gateOpen && h.connection.Some?
    ensures r.Sent? ==> r.connection == h.connection.value
    ensures r.Sent? ==> Protocol.DecodeFrames(r.frame) == Ok([Protocol.ToMessage(h.uuid, cmd)])
    ensures WellFormed(h) && r.Failed? ==> r.error == AlreadyFinished
  {
    if h.finished then Failed(AlreadyFinished)
    else if !h.gateOpen then Blocked
    else if h.connection.None? then Failed(NotConnected)
    else
      Protocol.DecodeCommand(h.uuid, cmd);
      Sent(h.connection.value, Protocol.EncodeCommand(h.uuid, cmd))
  }

  /** sep.join(parts), Python's str.join. */
  function Join(sep: string, parts: seq<string>): (r: string)
    ensures |parts| == 0 ==> r == []
    ensures |parts| == 1 ==> r == parts[0]
    decreases |parts|
  {
    if |parts| == 0 then []
    else if |parts| == 1 then parts[0]
    else parts[0] + sep + Join(sep, parts[1..])
  }

  /** Joining one more part adds the separator and the part at the end. */
  lemma {:induction false} JoinAppend(sep: string, parts: seq<string>, last: string)
    requires |parts| > 0
    ensures Join(sep, parts + [last]) == Join(sep, parts) + sep + last
    decreases |parts|
  {
    var all := parts + [last];
    if |parts| > 1 {
      assert all[1..] == parts[1..] + [last];
      JoinAppend(sep, parts[1..], last);
    } else {
      assert all[1..] == [last];
    }
  }

  /** The joined text holds every part once and a separator between each two. */
  lemma {:induction false} JoinLength(sep: string, parts: seq<string>)
    requires |parts| > 0
    ensures |Join(sep, parts)| == TotalLength(parts) + |sep| * (|parts| - 1)
    decreases |parts|
  {
    if |parts| > 1 {
      JoinLength(sep, parts[1..]);
    }
  }

  function TotalLength(parts: seq<string>): nat
    decreases |parts|
  {
    if |parts| == 0 then 0 else |parts[0]| + TotalLength(parts[1..])
  }

  /** print(*args, sep, end): the arguments (already converted with str())
      joined by `sep`, followed by `end`, sent as one print command. */
  function Print(h: Handle, args: seq<string>, sep: string, end: string): (r: SendOutcome)
    ensures h.finished ==> r == Failed(AlreadyFinished)
    ensures r.Blocked? <==> !h.finished && !h.gateOpen
    ensures r.Sent? ==> Protocol.DecodeFrames(r.frame) == Ok([Json.Message(h.uuid, "print", Some(Join(sep, args) + end))])
  {
    SendCommand(h, Protocol.Print(Join(sep, args) + end))
  }

  /** print on an attached handle sends the joined text on its connection. */
  lemma PrintSends(h: Handle, args: seq<string>, sep: string, end: string)
    requires WellFormed(h) && PhaseOf(h) == Attached
    ensures Print(h, args, sep, end) == Sent(h.connection.value, Protocol.EncodeCommand(h.uuid, Protocol.Print(Join(sep, args) + end)))
  {
  }

  /** What an input() call has returned: a value, nothing yet because the
      caller waits on the input Event, or nothing because the command was
      not sent yet (the caller waits for the attach) or was refused. */
  datatype InputReturn = Returned(value: Option<string>) | AwaitingResult | NotSent

  datatype InputCall = InputCall(handle: Handle, send: SendOutcome, result: InputReturn)

  /** The blocking half of input(): once the input Event is set, clear it
      and return _last_result_input. */
  function AwaitInput(h: Handle): (r: (Handle, InputReturn))
    ensures h.inputReady ==> r.1 == Returned(h.lastResult) && r.0 == h.(inputReady := false)
    ensures !h.inputReady ==> r.1 == AwaitingResult && r.0 == h
  {
    if h.inputReady then (h.(inputReady := false), Returned(h.lastResult)) else (h, AwaitingResult)
  }

  /** input(prompt, callback): send an input command; with a callback,
      append it to the callback list and return None at once; without one,
      wait for the result. */
  function Input(h: Handle, prompt: string, callback: Option<Callback>): (r: InputCall)
    ensures r.send == SendCommand(h, Protocol.Input(prompt))
    ensures !r.send.Sent? ==> r.handle == h && r.result == NotSent
    ensures r.send.Sent? && callback.Some? ==>
      r.handle == h.(callbacks := h.callbacks + [callback.value]) && r.result == Returned(None)
    ensures r.send.Sent? && callback.None? ==> (r.handle, r.result) == AwaitInput(h)
  {
    var s := SendCommand(h, Protocol.Input(prompt));
    if !s.Sent? then InputCall(h, s, NotSent)
    else match callback
      case Some(cb) => InputCall(h.(callbacks := h.callbacks + [cb]), s, Returned(None))
      case None =>
        var (h', result) := AwaitInput(h);
        InputCall(h', s, result)
  }

  /** close(): send the close command, then set the close flag. A close that
      raised or waits has not set the flag. */
  function Close(h: Handle): (r: (Handle, SendOutcome))
    ensures r.1 == SendCommand(h, Protocol.Close)
    ensures r.0.closeFlag <==> h.closeFlag || r.1.Sent?
    ensures r.0 == h.(closeFlag := r.0.closeFlag)
  {
    var s := SendCommand(h, Protocol.Close);
    if s.Sent? then (h.(closeFlag := true), s) else (h, s)
  }

  /** wait_close(): returns (true) once the handle is shut down, otherwise
      the caller keeps waiting (false). */
  function WaitClose(h: Handle): (released: bool)
    ensures WellFormed(h) ==> (released <==> PhaseOf(h) == Finished)
  {
    h.closeDone
  }

  /** _set_connection: store the connection, then release the lock. The
      lock is released once; a second attach stores its connection but then
      raises, because the lock is no longer held. */
  function SetConnection(h: Handle, connection: Connection): (r: (Handle, Option<Error>))
    ensures r.0.connection == Some(connection) && r.0.gateOpen
    ensures r.0.(connection := h.connection, gateOpen := h.gateOpen) == h
    ensures r.1.None? <==> !h.gateOpen
    ensures r.1.Some? ==> r.1.value == LockNotHeld
    ensures WellFormed(h) ==> WellFormed(r.0)
  {
    (h.(connection := Some(connection), gateOpen := true), if h.gateOpen then Some(LockNotHeld) else None)
  }

  /** A callback call: which callback, with which text. */
  datatype Invocation = Invocation(callback: Callback, text: string)

  /** The delivery of one input result by the reader (the body of
      _listen_connection after decoding): record the result, set the input
      Event whether or not a callback is waiting, and pop and call the most
      recently appended callback, if any. */
  function DeliverResult(h: Handle, text: string): (r: (Handle, Option<Invocation>))
    ensures r.0.lastResult == Some(text) && r.0.inputReady
    ensures |h.callbacks| == 0 ==> r.1.None? && r.0.callbacks == []
    ensures |h.callbacks| > 0 ==>
      r.1 == Some(Invocation(h.callbacks[|h.callbacks| - 1], text)) && r.0.callbacks + [r.1.value.callback] == h.callbacks
    ensures r.0 == h.(lastResult := Some(text), inputReady := true, callbacks := r.0.callbacks)
  {
    var h' := h.(lastResult := Some(text), inputReady := true);
    if |h.callbacks| == 0 then (h', None)
    else
      var last := |h.callbacks| - 1;
      (h'.(callbacks := h.callbacks[..last]), Some(Invocation(h.callbacks[last], text)))
  }

  /** What the host makes of the bytes of one receive: b64decode of the whole
      receive, then UTF-8. */
  function DecodeResult(raw: seq<byte>): (r: Result<string>)
    ensures r.Ok? ==> |raw| % 4 == 0 && (r.value == [] <==> raw == [])
  {
    var bytes :- Base64.Decode(raw);
    Base64.DecodeLength(raw);
    Utf8.Decode(bytes)
  }

  /** The host recovers exactly the line the terminal sent back. */
  lemma DecodeResultOfReply(line: string)
    ensures DecodeResult(Base64.Encode(Utf8.Encode(line))) == Ok(line)
  {
    Base64.DecodeEncode(Utf8.Encode(line));
    Utf8.DecodeEncode(line);
  }

  /** One received result: decode it and deliver it. A receive that does not
      decode raises in the reader and changes nothing. */
  function ReceiveResult(h: Handle, raw: seq<byte>): (r: Result<(Handle, Option<Invocation>)>)
    ensures r.Ok? <==> DecodeResult(raw).Ok?
    ensures r.Ok? ==> r.value == DeliverResult(h, DecodeResult(raw).value)
    ensures r.Err? ==> r.error == DecodeResult(raw).error
  {
    var text :- DecodeResult(raw);
    Ok(DeliverResult(h, text))
  }

  /** _shutdown: drop the connection, mark the handle finished and release
      wait_close(). */
  function Shutdown(h: Handle): (r: Handle)
    ensures PhaseOf(r) == Finished && r.connection.None? && WaitClose(r)
    ensures WellFormed(h) ==> WellFormed(r)
    ensures r.(connection := h.connection, finished := h.finished, closeDone := h.closeDone) == h
  {
    h.(connection := None, finished := true, closeDone := true)
  }

  /** The operations that change a handle, in the order they happen to it.
      Sends that change nothing (print) are left out. */
  datatype Operation =
    | Attach(connection: Connection)
    | Deliver(text: string)
    | Exit
    | AskInput(prompt: string, callback: Option<Callback>)
    | CloseWindow

  /** One operation applied to a handle. A handle keeps its identity, and
      only the reader's exit finishes it; nothing unfinishes it. */
  function Apply(h: Handle, e: Operation): (r: Handle)
    ensures r.uuid == h.uuid && r.address == h.address
    ensures r.finished <==> h.finished || e.Exit?
  {
    match e
    case Attach(c) => SetConnection(h, c).0
    case Deliver(text) => DeliverResult(h, text).0
    case Exit => Shutdown(h)
    case AskInput(prompt, cb) => Input(h, prompt, cb).handle
    case CloseWindow => Close(h).0
  }

  /** A sequence of operations applied in order. The handle ends finished
      exactly when it started finished or the reader exited on the way. */
  function Run(h: Handle, ops: seq<Operation>): (r: Handle)
    ensures r.uuid == h.uuid && r.address == h.address
    ensures r.finished <==> h.finished || Exit in ops
    decreases |ops|
  {
    if |ops| == 0 then h
    else
      assert Exit in ops <==> ops[0] == Exit || Exit in ops[1..] by {
        assert ops == [ops[0]] + ops[1..];
      }
      Run(Apply(h, ops[0]), ops[1..])
  }

  /** The number of attaches in `ops` that released the lock. */
  function Releases(h: Handle, ops: seq<Operation>): nat
    decreases |ops|
  {
    if |ops| == 0 then 0
    else (if ops[0].Attach? && !h.gateOpen then 1 else 0) + Releases(Apply(h, ops[0]), ops[1..])
  }

  predicate HasAttach(ops: seq<Operation>) {
    exists i :: 0 <= i < |ops| && ops[i].Attach?
  }

  /** Every operation keeps a handle well formed. */
  lemma {:induction false} RunWellFormed(h: Handle, ops: seq<Operation>)
    requires WellFormed(h)
    ensures WellFormed(Run(h, ops))
    decreases |ops|
  {
    if |ops| > 0 {
      ApplyWellFormed(h, ops[0]);
      RunWellFormed(Apply(h, ops[0]), ops[1..]);
    }
  }

  lemma ApplyWellFormed(h: Handle, e: Operation)
    requires WellFormed(h)
    ensures WellFormed(Apply(h, e))
  {
    match e
    case Attach(c) =>
    case Deliver(text) =>
    case Exit =>
    case AskInput(prompt, cb) =>
      var call := Input(h, prompt, cb);
      assert call.handle == h || call.handle == h.(callbacks := call.handle.callbacks)
        || call.handle == h.(inputReady := false);
    case CloseWindow =>
  }

  /** The gate, once open, stays open, and only an attach opens it. */
  lemma {:induction false} GateOpensOnlyOnAttach(h: Handle, ops: seq<Operation>)
    ensures Run(h, ops).gateOpen <==> h.gateOpen || HasAttach(ops)
    ensures !h.gateOpen ==> Releases(h, ops) == (if HasAttach(ops) then 1 else 0)
    ensures h.gateOpen ==> Releases(h, ops) == 0
    decreases |ops|
  {
    if |ops| > 0 {
      var h1 := Apply(h, ops[0]);
      ApplyGate(h, ops[0]);
      GateOpensOnlyOnAttach(h1, ops[1..]);
      assert HasAttach(ops) <==> ops[0].Attach? || HasAttach(ops[1..]) by {
        if HasAttach(ops[1..]) {
          var i :| 0 <= i < |ops[1..]| && ops[1..][i].Attach?;
          assert ops[i + 1].Attach?;
        }
        if HasAttach(ops) && !ops[0].Attach? {
          var i :| 0 <= i < |ops| && ops[i].Attach?;
          assert ops[1..][i - 1].Attach?;
        }
      }
    }
  }

  /** Only an attach changes the gate, and it opens it. */
  lemma ApplyGate(h: Handle, e: Operation)
    ensures Apply(h, e).gateOpen <==> h.gateOpen || e.Attach?
  {
    match e
    case AskInput(prompt, cb) =>
      var call := Input(h, prompt, cb);
      assert call.handle == h || call.handle == h.(callbacks := call.handle.callbacks)
        || call.handle == h.(inputReady := false);
    case _ =>
  }

  /** The send gate is closed at construction and released exactly once over
      the whole life of a handle: by its first attach, and by no other. */
  lemma GateReleasedExactlyOnce(uuid: string, address: Address, ops: seq<Operation>)
    ensures Run(New(uuid, address), ops).gateOpen <==> HasAttach(ops)
    ensures Releases(New(uuid, address), ops) == (if HasAttach(ops) then 1 else 0)
  {
    GateOpensOnlyOnAttach(New(uuid, address), ops);
  }

  /** A command issued before the terminal connects is not lost: it waits on
      the gate, and once a connection is attached the same command goes out
      on it, unchanged. */
  lemma SendWaitsForConnection(h: Handle, cmd: Protocol.Command, connection: Connection)
    requires WellFormed(h) && PhaseOf(h) == Unattached
    ensures SendCommand(h, cmd) == Blocked
    ensures SendCommand(SetConnection(h, connection).0, cmd) == Sent(connection, Protocol.EncodeCommand(h.uuid, cmd))
  {
  }

  /** The callback list is a stack: a result delivered right after a
      callback-mode input() goes to that input's callback, and the list is
      back to what it was before. */
  lemma CallbackResultPairing(h: Handle, prompt: string, cb: Callback, text: string)
    requires SendCommand(h, Protocol.Input(prompt)).Sent?
    ensures var call := Input(h, prompt, Some(cb));
      var delivered := DeliverResult(call.handle, text);
      call.result == Returned(None) &&
      delivered.1 == Some(Invocation(cb, text)) &&
      delivered.0.callbacks == h.callbacks
  {
    var call := Input(h, prompt, Some(cb));
    assert call.handle.callbacks == h.callbacks + [cb];
    assert (h.callbacks + [cb])[..|h.callbacks|] == h.callbacks;
  }

  /** Two results delivered while two callbacks wait, in the order the
      callbacks were appended: the later callback receives the first result
      and the earlier one the second. */
  lemma CallbacksAnsweredInReverse(h: Handle, cb1: Callback, cb2: Callback, answer1: string, answer2: string)
    requires h.callbacks == [cb1, cb2]
    ensures var d1 := DeliverResult(h, answer1);
      var d2 := DeliverResult(d1.0, answer2);
      d1.1 == Some(Invocation(cb2, answer1)) && d2.1 == Some(Invocation(cb1, answer2)) &&
      d2.0.callbacks == []
  {
    assert [cb1, cb2][..1] == [cb1];
  }

  /** Two callback-mode input() calls on an attached handle with no
      callback waiting leave both callbacks waiting, in the order asked. */
  lemma TwoCallbackInputs(h: Handle, prompt1: string, cb1: Callback, prompt2: string, cb2: Callback)
    requires WellFormed(h) && PhaseOf(h) == Attached && h.callbacks == []
    ensures Input(Input(h, prompt1, Some(cb1)).handle, prompt2, Some(cb2)).handle.callbacks == [cb1, cb2]
  {
    InputWithCallback(h, prompt1, cb1);
    InputWithCallback(Input(h, prompt1, Some(cb1)).handle, prompt2, cb2);
  }

  /** A callback-mode input() on an attached handle appends its callback,
      returns None and leaves the handle attached. */
  lemma InputWithCallback(h: Handle, prompt: string, cb: Callback)
    requires WellFormed(h) && PhaseOf(h) == Attached
    ensures var call := Input(h, prompt, Some(cb));
      call.result == Returned(None) && call.handle == h.(callbacks := h.callbacks + [cb]) &&
      WellFormed(call.handle) && PhaseOf(call.handle) == Attached
  {
  }

  /** close() leaves an attached handle attached: it only sets the close
      flag, so wait_close() still waits and print still sends. */
  lemma CloseKeepsSending(h: Handle, args: seq<string>, sep: string, end: string)
    requires WellFormed(h) && PhaseOf(h) == Attached
    ensures var closed := Close(h);
      closed.1 == Sent(h.connection.value, Protocol.EncodeCommand(h.uuid, Protocol.Close)) &&
      closed.0.closeFlag && PhaseOf(closed.0) == Attached && !WaitClose(closed.0) &&
      Print(closed.0, args, sep, end).Sent?
  {
  }

  /** A blocking input() waits until a result is delivered, then returns that
      result and clears the input Event. */
  lemma BlockingInputReturnsResult(h: Handle, prompt: string, text: string)
    requires WellFormed(h) && PhaseOf(h) == Attached && !h.inputReady
    ensures var call := Input(h, prompt, None);
      var delivered := DeliverResult(call.handle, text);
      var resumed := AwaitInput(delivered.0);
      call.send.Sent? && call.result == AwaitingResult &&
      resumed.1 == Returned(Some(text)) && !resumed.0.inputReady
  {
  }

  /** Because every delivery sets the input Event, even one consumed by a
      callback, a later blocking input() returns at once with that earlier
      result instead of waiting for the answer to its own prompt. */
  lemma BlockingInputAfterCallbackReturnsEarlierResult(
    h: Handle, first: string, cb: Callback, answer: string, second: string)
    requires WellFormed(h) && PhaseOf(h) == Attached
    ensures var call := Input(h, first, Some(cb));
      var delivered := DeliverResult(call.handle, answer);
      var blocking := Input(delivered.0, second, None);
      blocking.send.Sent? && blocking.result == Returned(Some(answer))
  {
  }
}
